=== FILE: README.md ===
# Band 5 down converter proxy: a Dafny model

This project models the core of the SKA-Mid dish Band 5 down converter (B5DC) proxy. The core has three parts:

- `B5dcDeviceComponentManager`, which keeps the device's sensor state and its communication status.
- The `B5dcProxy` Tango device, which translates between Tango attributes and commands and the component manager.
- `B5dcBuildStateDataclass`, the build-state record published on every connect.

Device I/O is not modelled as I/O. Each register round trip is an *outcome* handed in by the caller:
- a value read;
- a protocol timeout;
- an unknown-register error.

During a poll pass, the outcomes come from an oracle `dev(register, attempt)`. Sensor values are an opaque type parameter `V`.

Modules, in dependency order:

- `Base`: `Option` and `Result`.
- `Text`: what the Python built-ins used here do on text:
  - decimal rendering (`str`/f-strings) and parsing (`int`);
  - `str.split`;
  - first-match lookup (`dict.get`);
  - substring and suffix tests.
- `BuildState`: the ten-field build-state record, its defaults, and its serialisation to name/value pairs.
- `State`:
  - the register map and the published state keys;
  - the defaults the manager is constructed with;
  - the `Manager` record: published state, communication status, connected flag, and the values the current device facade holds;
  - the invariant `Valid`.
- `Sync`:
  - the single-register refresh requested by attribute readers;
  - the same refresh run inside the polling loop;
  - bounded retry of one register (`MAX_RETRY_COUNT` = 3);
  - the poll pass over all eleven registers.
- `Commands`:
  - command admission for `set_attenuation` and `set_frequency`, including the frequency validation that rejects on the spot;
  - the two task workers, modelled as the sequence of task-callback updates they emit.
- `Supervisor`:
  - `start_communicating`;
  - the build-state update;
  - the reconnect loop, as a sequence of connect cycles that each emit a trace of actions.

  A separate lifecycle monitor (`Step`/`Replay`) states which action orders are allowed. It is the independent reference the traces are proved against.
- `Proxy`:
  - the device properties that configure the manager;
  - the state-key to attribute-name map and the `setattr` loop of the state-change callback;
  - the sensor attribute readers;
  - routing of the three device commands.

## Model

| member | source | states |
|---|---|---|
| Text.ParseIntRoundTrip | src/ska_mid_dish_b5dc_proxy/b5dc_proxy.py:76-81 | `int` reads back the decimal rendering of every integer, negative ones included |
| Text.ParseInt | src/ska_mid_dish_b5dc_proxy/b5dc_proxy.py:77-81 | `int` succeeds exactly on decimal digits with at most one leading sign. The value is the digits' value, negated after a `-` |
| Text.IntToString | src/ska_mid_dish_b5dc_proxy/b5dc_cm.py:361-366 | the rendering is non-empty and starts with `-` exactly for a negative number; apart from that sign it is all decimal digits, with no leading zero unless the number is 0 |
| Text.IntToStringInjective | src/ska_mid_dish_b5dc_proxy/b5dc_cm.py:361-366 | distinct integers render as distinct decimal texts |
| Text.Split | src/ska_mid_dish_b5dc_proxy/b5dc_proxy.py:76-77 | splitting gives at least one field, and at least two exactly when the separator occurs |
| Text.SplitJoin | src/ska_mid_dish_b5dc_proxy/b5dc_proxy.py:76-77 | splitting on a separator loses nothing: joining the fields with it rebuilds the text |
| Text.FirstFieldIsPrefix | src/ska_mid_dish_b5dc_proxy/b5dc_proxy.py:76-77 | the first field is a separator-free prefix of the text; there are at least two fields exactly when the separator occurs, and then it follows the first field |
| Text.SplitFieldsHaveNoSeparator | src/ska_mid_dish_b5dc_proxy/b5dc_proxy.py:76-77 | no field of a split contains the separator |
| Text.Lookup | src/ska_mid_dish_b5dc_proxy/b5dc_proxy.py:116 | the lookup fails exactly when no entry has the key, and a hit is the value of an entry with that key |
| Text.LookupFindsFirst | src/ska_mid_dish_b5dc_proxy/b5dc_proxy.py:116 | the value found for a key is the one of its first entry |
| BuildState.FieldsDetermineRecord | src/ska_mid_dish_b5dc_proxy/models/data_classes.py:11-20 | two records with the same ten field values are the same record |
| BuildState.FieldNamesDistinct | src/ska_mid_dish_b5dc_proxy/models/data_classes.py:11-20 | the record has ten fields, with pairwise distinct names |
| BuildState.Default | src/ska_mid_dish_b5dc_proxy/models/data_classes.py:11-20 | a record built with no arguments has every field empty |
| BuildState.Partial | src/ska_mid_dish_b5dc_proxy/b5dc_cm.py:452-455 | a record built from the device name and address has those two and eight empty fields |
| BuildState.AsPairs | src/ska_mid_dish_b5dc_proxy/b5dc_cm.py:458 | the serialised record lists the ten field names in declaration order, each paired with that field's value |
| BuildState.FromPairs | src/ska_mid_dish_b5dc_proxy/models/data_classes.py:7-20 | construction from keyword pairs gives each field the value of its name's first pair, or "" when its name is missing. Its partner is FromPairsAsPairs |
| BuildState.LookupAsPairs | src/ska_mid_dish_b5dc_proxy/b5dc_cm.py:458 | every field name reads back its own field's value in the serialised record |
| BuildState.FromPairsAsPairs | src/ska_mid_dish_b5dc_proxy/b5dc_cm.py:458 | serialising a record and constructing one from the pairs gives the record back |
| State.RegistersDistinct | src/ska_mid_dish_b5dc_proxy/b5dc_cm.py:84-96 | the eleven registers are pairwise distinct, and none is named `buildstate` |
| State.InitialState | src/ska_mid_dish_b5dc_proxy/b5dc_cm.py:98-114 | the initial state has exactly the register keys plus `buildstate`: registers hold their defaults and the build state is "" |
| State.InitialStateShape | src/ska_mid_dish_b5dc_proxy/b5dc_cm.py:98-114 | the initial state has twelve keys; only the PLL lock is NOT_LOCKED and every other register is 0.0 |
| State.NewManager | src/ska_mid_dish_b5dc_proxy/b5dc_cm.py:84-114 | a new manager satisfies the invariant, is not connected, has communication DISABLED and publishes the initial state |
| Sync.SyncOutside | src/ska_mid_dish_b5dc_proxy/b5dc_cm.py:197-227 | when not connected nothing happens. A timeout or unknown register changes nothing. A read value publishes only that register and sets ESTABLISHED. KeyError escapes exactly for an unmapped name whose round trip did not raise KeyError, and an unmapped name never changes a published value. No other key changes |
| Sync.SyncOutsideValid | src/ska_mid_dish_b5dc_proxy/b5dc_cm.py:197-227 | the refresh keeps the manager invariant |
| Sync.SyncOutsideIdempotent | src/ska_mid_dish_b5dc_proxy/b5dc_cm.py:197-227 | repeating a refresh with the same device answer leaves the state where the first one left it |
| Sync.SyncWithin | src/ska_mid_dish_b5dc_proxy/b5dc_cm.py:258-284 | the in-loop refresh re-raises exactly the timeouts, with nothing changed. An unknown-register error publishes the facade's current value and leaves connectivity alone. A read value publishes it and sets ESTABLISHED |
| Sync.RetryRegister | src/ska_mid_dish_b5dc_proxy/b5dc_cm.py:237-256 | a register is attempted at most three times, and only that register is touched. The budget is exhausted exactly when every remaining attempt times out, and then nothing changes |
| Sync.RetryStopsAtFirstSuccess | src/ska_mid_dish_b5dc_proxy/b5dc_cm.py:237-256 | the number of attempts is the number of leading timeouts plus one, capped at the budget |
| Sync.RetryEndsAtFirstAnswer | src/ska_mid_dish_b5dc_proxy/b5dc_cm.py:237-256 | when some attempt within the budget does not time out, the retry ends in the state that attempt's refresh produces |
| Sync.PollPass | src/ska_mid_dish_b5dc_proxy/b5dc_cm.py:237-256 | a pass keeps the invariant, attempts only listed registers, at most three times per listing, and leaves other keys alone. It aborts exactly when connected and some register times out on every attempt |
| Sync.PassStopsAtExhaustedRegister | src/ska_mid_dish_b5dc_proxy/b5dc_cm.py:237-256 | when register i is the first to exhaust its retries, the pass is aborted and no register after i is attempted |
| Sync.FaultFreePass | src/ska_mid_dish_b5dc_proxy/b5dc_cm.py:237-256 | when every first attempt answers, the pass attempts each register exactly once, in order, and is not aborted |
| Sync.FaultFreePublishes | src/ska_mid_dish_b5dc_proxy/b5dc_cm.py:237-256 | when every first attempt answers, a pass over distinct registers publishes each register's value and leaves communication ESTABLISHED |
| Sync.FirstAttemptSucceeds | src/ska_mid_dish_b5dc_proxy/b5dc_cm.py:258-284 | a register whose first attempt answers is attempted once and its value published |
| Sync.UpdateAllRegisters | src/ska_mid_dish_b5dc_proxy/b5dc_cm.py:237-256 | a pass over the register map keeps the invariant, attempts no register more than three times and never touches the build state |
| Sync.FaultFreeUpdateAll | src/ska_mid_dish_b5dc_proxy/b5dc_cm.py:237-256 | a fault-free pass over the register map updates the eleven registers once each, in map order, with the values read |
| Commands.FrequencyOf | src/ska_mid_dish_b5dc_proxy/b5dc_cm.py:357-359 | an enum member exists exactly for 1, 2 and 3, and its value is the argument |
| Commands.FrequencyOfCode | src/ska_mid_dish_b5dc_proxy/b5dc_cm.py:357-359 | every frequency member is found again from its value |
| Commands.SetAttenuation | src/ska_mid_dish_b5dc_proxy/b5dc_cm.py:290-303 | attenuation is always submitted with its two arguments, gated on the connected flag |
| Commands.SetFrequency | src/ska_mid_dish_b5dc_proxy/b5dc_cm.py:351-374 | a value outside {1, 2, 3} is refused with REJECTED and the message; a valid one is submitted as its enum member, gated on the connected flag |
| Commands.ProgressText | src/ska_mid_dish_b5dc_proxy/b5dc_cm.py:324-329 | the IN_PROGRESS text contains the attenuation value and the register, or the frequency value |
| Commands.FailureText | src/ska_mid_dish_b5dc_proxy/b5dc_cm.py:337-342 | the FAILED text ends with the exception text; for attenuation it also contains the register |
| Commands.CompletionText | src/ska_mid_dish_b5dc_proxy/b5dc_cm.py:345-349 | the COMPLETED text contains the attenuation value and the register, or the frequency value |
| Commands.InvalidFrequencyMessageNamesValue | src/ska_mid_dish_b5dc_proxy/b5dc_cm.py:361-366 | the rejection message contains the offending value, and distinct values give distinct messages |
| Commands.Execute | src/ska_mid_dish_b5dc_proxy/b5dc_cm.py:305-349 | the callback sees ABORTED alone, or IN_PROGRESS with the progress text and then at most one terminal update. A domain error gives exactly IN_PROGRESS then FAILED with the failure text. Success gives exactly IN_PROGRESS then COMPLETED with the completion text. Any other error gives only IN_PROGRESS, and the exception escapes |
| Commands.SubmittedAttenuationReportsArguments | src/ska_mid_dish_b5dc_proxy/b5dc_cm.py:290-349 | an attenuation request, once admitted and run to success, reports both its value and its register in the IN_PROGRESS and COMPLETED texts |
| Commands.TerminalOutcomesExclusive | src/ska_mid_dish_b5dc_proxy/b5dc_cm.py:305-349 | FAILED and COMPLETED never occur in one run |
| Commands.AttenuationFailureNamesRegister | src/ska_mid_dish_b5dc_proxy/b5dc_cm.py:333-343 | the FAILED result of an attenuation names the register and ends with the exception text |
| Commands.FrequencyFailureEmbedsError | src/ska_mid_dish_b5dc_proxy/b5dc_cm.py:397-406 | the FAILED result of a frequency change ends with the exception text |
| Commands.AttenuationTextsNameArguments | src/ska_mid_dish_b5dc_proxy/b5dc_cm.py:324-349 | distinct attenuation values give distinct progress texts, and the completion text names the register |
| Commands.IntToStringHasNoComma | src/ska_mid_dish_b5dc_proxy/b5dc_cm.py:327-328 | a rendered integer never contains a comma, so the attenuation value in the progress text ends at the first comma |
| Supervisor.BuildRecord | src/ska_mid_dish_b5dc_proxy/b5dc_cm.py:429-460 | no record exactly when a reader raises. With both readers, the record holds the device name, the server address, all seven versions the configuration reader reports, and the `<model>_<build time>.fpg` file. With a reader missing, it holds the device name, the failure text in `device_ip`, and eight empty fields |
| Supervisor.DegradedRecordSerialised | src/ska_mid_dish_b5dc_proxy/b5dc_cm.py:451-458 | the serialised degraded record reads back the device name, the failure text and eight empty fields |
| Supervisor.PopulatedRecordSerialised | src/ska_mid_dish_b5dc_proxy/b5dc_cm.py:435-458 | the serialised populated record reads back the server address, the comms-engine version and the firmware file name |
| Supervisor.StartCommunicating | src/ska_mid_dish_b5dc_proxy/b5dc_cm.py:419-427 | start publishes NOT_ESTABLISHED, and then starts the loop thread; no published value changes |
| Supervisor.RunPasses | src/ska_mid_dish_b5dc_proxy/b5dc_cm.py:230-235 | polling while connected keeps the invariant and the build state, runs one pass per device oracle, and attempts no register more than three times in any pass |
| Supervisor.Cycle | src/ska_mid_dish_b5dc_proxy/b5dc_cm.py:126-163 | a cycle halts exactly when the datagram endpoint cannot be created or a build-state reader raises. On an endpoint failure nothing changes. On a reader failure the transport was opened and the facade rebuilt. Otherwise the cycle publishes its record, ends disconnected with NOT_ESTABLISHED, and its trace has the connected-cycle shape |
| Supervisor.ReplayAppend | src/ska_mid_dish_b5dc_proxy/b5dc_cm.py:126-163 | replaying two traces one after the other is replaying their concatenation |
| Supervisor.CycleFollowsLifecycle | src/ska_mid_dish_b5dc_proxy/b5dc_cm.py:126-163 | every cycle's trace is allowed by the lifecycle monitor, and a completed cycle returns it to idle |
| Supervisor.CountsAppend | src/ska_mid_dish_b5dc_proxy/b5dc_cm.py:126-163 | build-state publications and transport-open attempts add up over concatenated traces |
| Supervisor.HaltedTraceCounts | src/ska_mid_dish_b5dc_proxy/b5dc_cm.py:132-144 | both halted traces, a failed endpoint and a failed reader, make one open attempt and publish no build state |
| Supervisor.CycleBuildsOnce | src/ska_mid_dish_b5dc_proxy/b5dc_cm.py:126-163 | each cycle makes one attempt to open a transport, and publishes the build state once unless it halted |
| Supervisor.SuperviseFollowsLifecycle | src/ska_mid_dish_b5dc_proxy/b5dc_cm.py:126-163 | the whole reconnect loop follows the lifecycle. Every open attempt is matched by one build-state publication, except in a final halted cycle |
| Supervisor.Supervise | src/ska_mid_dish_b5dc_proxy/b5dc_cm.py:128-163 | the loop halts exactly when one of its cycles fails, at the endpoint or at the build-state readers. It keeps the invariant and the configuration, and ends disconnected. When it ran at least one cycle and did not halt, it ends with NOT_ESTABLISHED |
| Supervisor.Session | src/ska_mid_dish_b5dc_proxy/b5dc_cm.py:419-427 | a session from construction publishes NOT_ESTABLISHED first, its trace follows the lifecycle, and it ends disconnected with the invariant kept |
| Proxy.ParseConfig | src/ska_mid_dish_b5dc_proxy/b5dc_proxy.py:76-85 | an endpoint with no ':' fails for the missing port. A second field that is not an integer fails, naming that field. On success, the address is the colon-free text before the first ':', the port is the integer value of the second field, and the period is the integer value of its property. A period that is not an integer fails |
| Proxy.EndpointRoundTrip | src/ska_mid_dish_b5dc_proxy/b5dc_proxy.py:76-81 | an endpoint written as `ip:port` from a colon-free address configures that address and port, and the rendered period reads back as the period |
| Proxy.DefaultConfig | src/ska_mid_dish_b5dc_proxy/b5dc_proxy.py:25-26 | the default properties configure 127.0.0.1, port 10001 and a ten-second period |
| Proxy.AttrMapFollowsRegisterMap | src/ska_mid_dish_b5dc_proxy/b5dc_proxy.py:44-57 | the attribute map lists `buildstate` first, then the eleven registers in register-map order |
| Proxy.AttrMapDistinct | src/ska_mid_dish_b5dc_proxy/b5dc_proxy.py:44-57 | neither keys nor attribute names repeat in the attribute map |
| Proxy.AttrMapKeysAreStateKeys | src/ska_mid_dish_b5dc_proxy/b5dc_proxy.py:44-57 | the keys the map translates are exactly the manager's published state keys |
| Proxy.AttrName | src/ska_mid_dish_b5dc_proxy/b5dc_proxy.py:116 | a mapped key is published under its mapped attribute name, and an unmapped key under its own name |
| Proxy.AttrNameInjective | src/ska_mid_dish_b5dc_proxy/b5dc_proxy.py:44-57 | distinct state keys are published under distinct attributes |
| Proxy.SetAttributes | src/ska_mid_dish_b5dc_proxy/b5dc_proxy.py:115-117 | the `setattr` loop defines exactly the existing attributes plus the assigned ones. An attribute assigned twice keeps the later value, and unassigned attributes keep theirs |
| Proxy.ComponentStateChanged | src/ska_mid_dish_b5dc_proxy/b5dc_proxy.py:113-117 | the callback defines exactly the existing attributes plus those the changed keys translate to, and leaves every other attribute alone |
| Proxy.StateUpdateLandsOnAttributes | src/ska_mid_dish_b5dc_proxy/b5dc_proxy.py:113-117 | a state update over distinct state keys puts each value on its own key's attribute and changes nothing else |
| Proxy.ReadersAgreeWithAttrMap | src/ska_mid_dish_b5dc_proxy/b5dc_proxy.py:148-253 | there is one sensor reader per register, in register-map order, and each is the attribute that register's updates are published to |
| Proxy.SensorRegister | src/ska_mid_dish_b5dc_proxy/b5dc_proxy.py:148-253 | an attribute has a reader exactly when it is listed; its register is a map register whose updates go to that attribute |
| Proxy.SensorRegisterOfAttrName | src/ska_mid_dish_b5dc_proxy/b5dc_proxy.py:148-253 | every register is read back by the reader of the attribute its updates are published to |
| Proxy.ReadSensor | src/ska_mid_dish_b5dc_proxy/b5dc_proxy.py:148-253 | a read refreshes only its register. A value read while connected is returned and sets ESTABLISHED. Otherwise the manager is unchanged and the published value is returned, or the register's default when the key is absent |
| Proxy.ReadSensorKeepsBuildState | src/ska_mid_dish_b5dc_proxy/b5dc_proxy.py:148-253 | a sensor read keeps the manager invariant and never changes the build state |
| Proxy.FreshDeviceReadsDefaults | src/ska_mid_dish_b5dc_proxy/b5dc_proxy.py:148-253 | before any connection every sensor attribute reads its register's default, whatever the device answers |
| Proxy.ReadSensorRepeatable | src/ska_mid_dish_b5dc_proxy/b5dc_proxy.py:148-253 | reading a sensor again with the same device answer returns the same value and state |
| Proxy.ReadBuildState | src/ska_mid_dish_b5dc_proxy/b5dc_proxy.py:138-141 | `buildState` returns the published `buildstate` value, with no refresh. It answers exactly when the key is present, and the key is always present in a valid manager |
| Proxy.BuildStateAfterConnect | src/ska_mid_dish_b5dc_proxy/b5dc_proxy.py:138-141 | after a connect cycle that did not halt, `buildState` reads that cycle's record, whichever way the connection ended. Before any connection it reads "" |
| Proxy.Route | src/ska_mid_dish_b5dc_proxy/b5dc_proxy.py:266-299 | SetHPolAttenuation and SetVPolAttenuation forward their own register to `set_attenuation`, and SetFrequency forwards its value to `set_frequency` |
| Proxy.AttenuationRoutesToOwnPolarisation | src/ska_mid_dish_b5dc_proxy/b5dc_proxy.py:266-284 | the two attenuation commands write different registers, each the one its own polarisation's attribute reads back, with the value unchanged |
| Proxy.Invoke | src/ska_mid_dish_b5dc_proxy/b5dc_proxy.py:266-299 | a command returns the handler's result code and identifier, each in a one-element list |
| Proxy.FrequencyCommandAdmission | src/ska_mid_dish_b5dc_proxy/b5dc_proxy.py:295-299 | SetFrequency is refused, with the message naming the value, exactly when the value is outside 1..3. A valid value is submitted as its enum member, gated on the connected flag |

## Left out

- Threads, locks and the asyncio event loops are left out. Every refresh, poll pass and connect cycle is atomic here. The lock around sensor updates and the interleaving of reader refreshes with the polling loop are not modelled.
- Time is left out. The polling period is only configuration, and the five-second retry delay is a `RetryDelay` action. Between the end of one pass and the start of the next, the poll loop sleeps for the polling period; that sleep is not modelled.
- The UDP transport, the protocol and the B5DC device library are not part of this model. Their effect is given as inputs: the `Outcome` of each round trip, whether the datagram endpoint could be created (`CycleInput.endpointCreated`), and the `BuildInput` the build-state readers report.
- Supervisor.BuildRecord and Supervisor.Cycle: the build-state device name comes from `models/constants.py`, which is not part of this model. It is a parameter here.
- The JSON text of the build state is left out: the record is published as a `BuildDoc`; its serialisation is `AsPairs`, field/value pairs in declaration order. Indentation and escaping are not modelled.
- Tango is left out: event pushing (`push_change_event`, `push_archive_event`), the `is_omni_thread` test, attribute types and quality, and the `connectionState` attribute.
- Logging is left out.
- The base-class component manager is left out:
  - the executor behind `submit_task` is summarised as "submitted with the connected-flag gate";
  - the suppression of unchanged values in `_update_component_state` is not modelled;
  - the `SubmittedSlowCommand` handler is an oracle in Proxy.Invoke.
- Commands.Execute: the task callback is assumed present. With no callback, the abort branch would raise `TypeError`, and the other updates would be skipped.
- Commands.ProgressText: the frequency is rendered as its integer value, assuming the enum is an integer enum. The enum module is not part of this model.
- Text.ParseInt: only an optional sign followed by ASCII digits is read. Python's `int` also accepts surrounding whitespace, underscores between digits and non-ASCII digits.
- Proxy.ParseConfig: a port that `int` would accept with surrounding whitespace is rejected here, for the same reason.
- The poll loop's task (`_periodically_poll_sensor_values`) is modelled only as the passes it runs. `CycleInput.passes` lists those passes up to the connection loss, with no timing.
- `_update_b5dc_interface` is modelled as replacing the facade's sensor values with those of the new connection. Its protocol-missing `RuntimeError`, and the missing-loop `RuntimeError`, cannot occur on the path modelled here.
- The files `B5dc_cm.py` and `B5dc_ds.py` are earlier drafts of the same classes and are not modelled.

Behaviour of the code worth noting:

- A register that exhausts its three retries ends the whole poll pass. The remaining registers wait for the next pass; they are not skipped individually.
- A build-state reader that raises ends the connection task, because there is no handler around it. So does a failure to create the datagram endpoint. The model stops the reconnect loop with a `Halt` action in both cases.
- Inside the connect loop, both build-state readers are constructed just before the build state is updated. So a connect cycle never meets absent readers, and `Supervisor.Cycle`'s `ReadersMissing` branch cannot be reached in the live loop. `_update_build_state` is called only there, so the degraded record can arise only when a reader constructor returns None.
- Inside the polling loop, an unknown-register error is only logged. Control then falls through and publishes the value the facade currently holds for the register, without touching connectivity.

=== FILE: base.dfy ===
/** Small failure-carrying datatypes shared by the other modules. */
module Base {

  /** A value that may be absent (Python's `None` or a missing key). */
  datatype Option<+T> = None | Some(value: T) {

    /** The carried value, or `default` when there is none (`dict.get(k, default)`). */
    function GetOr(default: T): T {
      match this
      case Some(v) => v
      case None => default
    }
  }

  /** The value of a computation, or the exception it raised. */
  datatype Result<+T, +E> = Ok(value: T) | Err(error: E)
}

=== FILE: build_state.dfy ===
/**
 The build-state record of the band 5 down converter: ten text fields, each
 defaulting to the empty string, serialised field by field in declaration order.
 */
module BuildState {
  import opened Base
  import opened Text

  datatype BuildStateRecord = BuildStateRecord(
    device: string,
    deviceIp: string,
    deviceVersion: string,
    commsEngineVersion: string,
    rfcmPsuVersion: string,
    rfcmPcbVersion: string,
    backplaneVersion: string,
    psuVersion: string,
    icdVersion: string,
    fpgaFirmwareFile: string)

  /** The serialised field names, in declaration order. */
  const FieldNames: seq<string> := [
    "device", "device_ip", "device_version", "comms_engine_version",
    "rfcm_psu_version", "rfcm_pcb_version", "backplane_version",
    "psu_version", "icd_version", "fpga_firmware_file"]

  const FieldCount: nat := 10

  /** The value of the `i`-th declared field. */
  function Field(r: BuildStateRecord, i: nat): string
    requires i < FieldCount
  {
    match i
    case 0 => r.device
    case 1 => r.deviceIp
    case 2 => r.deviceVersion
    case 3 => r.commsEngineVersion
    case 4 => r.rfcmPsuVersion
    case 5 => r.rfcmPcbVersion
    case 6 => r.backplaneVersion
    case 7 => r.psuVersion
    case 8 => r.icdVersion
    case _ => r.fpgaFirmwareFile
  }

  /** Records are equal exactly when they agree on every field. */
  lemma FieldsDetermineRecord(a: BuildStateRecord, b: BuildStateRecord)
    requires forall i :: 0 <= i < FieldCount ==> Field(a, i) == Field(b, i)
    ensures a == b
  {
    assert Field(a, 0) == Field(b, 0) && Field(a, 1) == Field(b, 1);
    assert Field(a, 2) == Field(b, 2) && Field(a, 3) == Field(b, 3);
    assert Field(a, 4) == Field(b, 4) && Field(a, 5) == Field(b, 5);
    assert Field(a, 6) == Field(b, 6) && Field(a, 7) == Field(b, 7);
    assert Field(a, 8) == Field(b, 8) && Field(a, 9) == Field(b, 9);
  }

  lemma FieldNamesDistinct()
    ensures |FieldNames| == FieldCount
    ensures forall i, j :: 0 <= i < j < FieldCount ==> FieldNames[i] != FieldNames[j]
  {
  }

  /** A record built with no arguments: every field keeps its default. */
  function Default(): (r: BuildStateRecord)
    ensures forall i :: 0 <= i < FieldCount ==> Field(r, i) == ""
  {
    FromPairs([])
  }

  /**
   A record built with only `device` and `device_ip`; this is the degraded
   build state published when the readers are missing.
   */
  function Partial(device: string, deviceIp: string): (r: BuildStateRecord)
    ensures Field(r, 0) == device && Field(r, 1) == deviceIp
    ensures forall i :: 2 <= i < FieldCount ==> Field(r, i) == ""
  {
    var pairs := [("device", device), ("device_ip", deviceIp)];
    assert pairs[1..] == [("device_ip", deviceIp)];
    assert FieldNames[1] == "device_ip" && "device" != "device_ip";
    assert Lookup(pairs[1..], "device_ip") == Some(deviceIp);
    FromPairs(pairs)
  }

  /** The record as an ordered list of (field name, value) pairs. */
  function AsPairs(r: BuildStateRecord): (pairs: seq<(string, string)>)
    ensures |pairs| == FieldCount
    ensures forall i :: 0 <= i < FieldCount ==> pairs[i].0 == FieldNames[i]
    ensures forall i :: 0 <= i < FieldCount ==> pairs[i].1 == Field(r, i)
  {
    seq(FieldCount, i requires 0 <= i < FieldCount => (FieldNames[i], Field(r, i)))
  }

  /**
   The record the keyword arguments `pairs` construct: each field takes the
   value given for its name, or its empty-string default.
   */
  function FromPairs(pairs: seq<(string, string)>): (r: BuildStateRecord)
    ensures forall i :: 0 <= i < FieldCount ==> Field(r, i) == Lookup(pairs, FieldNames[i]).GetOr("")
  {
    BuildStateRecord(
      Lookup(pairs, FieldNames[0]).GetOr(""),
      Lookup(pairs, FieldNames[1]).GetOr(""),
      Lookup(pairs, FieldNames[2]).GetOr(""),
      Lookup(pairs, FieldNames[3]).GetOr(""),
      Lookup(pairs, FieldNames[4]).GetOr(""),
      Lookup(pairs, FieldNames[5]).GetOr(""),
      Lookup(pairs, FieldNames[6]).GetOr(""),
      Lookup(pairs, FieldNames[7]).GetOr(""),
      Lookup(pairs, FieldNames[8]).GetOr(""),
      Lookup(pairs, FieldNames[9]).GetOr(""))
  }

  /** Looking a field name up in the serialised record finds that field's value. */
  lemma LookupAsPairs(r: BuildStateRecord, i: nat)
    requires i < FieldCount
    ensures Lookup(AsPairs(r), FieldNames[i]) == Some(Field(r, i))
  {
    var pairs := AsPairs(r);
    FieldNamesDistinct();
    LookupFindsFirst(pairs, i);
  }

  /** Serialising a record and constructing from the pairs gives it back. */
  lemma FromPairsAsPairs(r: BuildStateRecord)
    ensures FromPairs(AsPairs(r)) == r
  {
    forall i | 0 <= i < FieldCount
      ensures Field(FromPairs(AsPairs(r)), i) == Field(r, i)
    {
      LookupAsPairs(r, i);
    }
    FieldsDetermineRecord(FromPairs(AsPairs(r)), r);
  }
}

=== FILE: commands.dfy ===
/**
 Command admission and the task workers for SetAttenuation and SetFrequency.
 The task executor is not modelled: admission yields the job together with
 the gate the executor checks (the connected flag). A worker run yields the
 task-callback updates it emits, in order.
 */
module Commands {
  import opened Base
  import opened Text

  /** The device's three carrier frequencies. */
  datatype Frequency = F11_1GHz | F13_2GHz | F13_86GHz {
    /** The enum value. */
    function Code(): int {
      match this
      case F11_1GHz => 1
      case F13_2GHz => 2
      case F13_86GHz => 3
    }
  }

  /** `B5dcFrequency(value)`: the member with that value, or None for the ValueError. */
  function FrequencyOf(value: int): (r: Option<Frequency>)
    ensures r.Some? <==> 1 <= value <= 3
    ensures r.Some? ==> r.value.Code() == value
  {
    if value == 1 then Some(F11_1GHz)
    else if value == 2 then Some(F13_2GHz)
    else if value == 3 then Some(F13_86GHz)
    else None
  }

  /** Every member is found again from its value. */
  lemma FrequencyOfCode(f: Frequency)
    ensures FrequencyOf(f.Code()) == Some(f)
  {
  }

  datatype TaskStatus = InProgress | Aborted | Completed | Failed | Rejected

  /** A submitted unit of work. */
  datatype Job = AttenuationJob(db: int, register: string) | FrequencyJob(frequency: Frequency)

  /** The admission predicate handed to the executor: the connected flag must be set. */
  datatype Gate = WhenConnected {
    predicate Admits(connected: bool) {
      connected
    }
  }

  /** What a command-handler call returns before any work runs. */
  datatype Admission = Refused(status: TaskStatus, message: string) | Submitted(job: Job, gate: Gate)

  /** `set_attenuation`: always submitted, range checking is left to the device. */
  function SetAttenuation(db: int, register: string): (r: Admission)
    ensures r.Submitted? && r.job.AttenuationJob?
    ensures r.job.db == db && r.job.register == register && r.gate == WhenConnected
  {
    Submitted(AttenuationJob(db, register), WhenConnected)
  }

  const InvalidFrequencyPrefix: string := "Invalid frequency value supplied: "
  const InvalidFrequencySuffix: string :=
    ". Expected B5dcFrequency enum value (ie: B5dcFrequency.F_11_1_GHZ(1), "
    + "B5dcFrequency.F_13_2_GHZ(2) or B5dcFrequency.F_13_86_GHZ(3))"

  function InvalidFrequencyMessage(value: int): string {
    InvalidFrequencyPrefix + IntToString(value) + InvalidFrequencySuffix
  }

  /**
   `set_frequency`: a value outside {1, 2, 3} is refused on the spot with
   REJECTED and a message naming it and the three valid members; no task is
   submitted, whatever the connectivity. A valid value is submitted as the
   enum member, gated on the connected flag.
   */
  function SetFrequency(value: int): (r: Admission)
    ensures r.Refused? <==> value !in {1, 2, 3}
    ensures r.Refused? ==> r.status == Rejected && r.message == InvalidFrequencyMessage(value)
    ensures r.Submitted? ==> r.job.FrequencyJob? && r.job.frequency.Code() == value && r.gate == WhenConnected
  {
    match FrequencyOf(value)
    case None => Refused(Rejected, InvalidFrequencyMessage(value))
    case Some(f) => Submitted(FrequencyJob(f), WhenConnected)
  }

  /** The refusal message names the offending value: distinct values give distinct messages. */
  lemma InvalidFrequencyMessageNamesValue(a: int, b: int)
    ensures InvalidFrequencyMessage(a) == InvalidFrequencyMessage(b) ==> a == b
    ensures Contains(InvalidFrequencyMessage(a), IntToString(a))
  {
    ContainsMiddle(InvalidFrequencyPrefix, IntToString(a), InvalidFrequencySuffix);
    if InvalidFrequencyMessage(a) == InvalidFrequencyMessage(b) {
      MiddleDetermined(InvalidFrequencyPrefix, IntToString(a), IntToString(b), InvalidFrequencySuffix);
      IntToStringInjective(a, b);
    }
  }

  /** Equal texts with the same prefix and suffix have the same middle. */
  lemma MiddleDetermined(p: string, x: string, y: string, q: string)
    requires p + x + q == p + y + q
    ensures x == y
  {
    var s := p + x + q;
    assert s[|p|..|s| - |q|] == x;
    assert (p + y + q)[|p|..|s| - |q|] == y;
  }

  /** One keyword-argument call of the task callback. */
  datatype Update =
    | StatusOnly(status: TaskStatus)
    | WithProgress(status: TaskStatus, progress: string)
    | WithResult(status: TaskStatus, result: string)

  /** How the device mutator call ends. */
  datatype MutatorOutcome =
    | Done                      // the register was written
    | DomainError(text: string) // the device class raised its attenuation/frequency exception
    | OtherError                // any other exception (e.g. a protocol timeout): not caught by the worker

  /** A worker run: callback updates in order, whether the mutator ran, whether an exception escaped. */
  datatype Run = Run(updates: seq<Update>, mutatorCalled: bool, escaped: bool)

  /** The IN_PROGRESS text: names the command and its arguments. */
  function ProgressText(job: Job): (t: string)
    ensures job.AttenuationJob? ==> Contains(t, IntToString(job.db)) && Contains(t, job.register)
    ensures job.FrequencyJob? ==> Contains(t, IntToString(job.frequency.Code()))
  {
    match job
    case AttenuationJob(db, reg) =>
      ContainsBoth("Called SetAttenuation with args (attenuation_db=", IntToString(db), ", attn_reg_name=", reg, ")");
      "Called SetAttenuation with args (attenuation_db=" + IntToString(db) + ", attn_reg_name=" + reg + ")"
    case FrequencyJob(f) =>
      ContainsMiddle("Called SetFrequency with arg (frequency=", IntToString(f.Code()), ")");
      "Called SetFrequency with arg (frequency=" + IntToString(f.Code()) + ")"
  }

  /** Both inserted parts occur in a text built from five pieces. */
  lemma ContainsBoth(a: string, x: string, b: string, y: string, c: string)
    ensures Contains(a + x + b + y + c, x) && Contains(a + x + b + y + c, y)
  {
    ContainsMiddle(a, x, b + y + c);
    assert a + x + b + y + c == a + x + (b + y + c);
    ContainsMiddle(a + x + b, y, c);
  }

  /** The FAILED text: ends with the device exception's text; for attenuation it names the register. */
  function FailureText(job: Job, error: string): (t: string)
    ensures EndsWith(t, error)
    ensures job.AttenuationJob? ==> Contains(t, job.register)
  {
    match job
    case AttenuationJob(_, reg) =>
      var pre := "An error occured on setting the B5dc attenuation on ";
      ContainsMiddle(pre, reg, ": " + error);
      assert pre + reg + ": " + error == pre + reg + (": " + error);
      pre + reg + ": " + error
    case FrequencyJob(_) =>
      "An error occured on setting the B5dc frequency: " + error
  }

  /** The COMPLETED text: names the command and its arguments. */
  function CompletionText(job: Job): (t: string)
    ensures job.AttenuationJob? ==> Contains(t, IntToString(job.db)) && Contains(t, job.register)
    ensures job.FrequencyJob? ==> Contains(t, IntToString(job.frequency.Code()))
  {
    match job
    case AttenuationJob(db, reg) =>
      ContainsBoth("SetAttenuation(", IntToString(db), ", ", reg, ") completed");
      "SetAttenuation(" + IntToString(db) + ", " + reg + ") completed"
    case FrequencyJob(f) =>
      ContainsMiddle("SetFrequency(", IntToString(f.Code()), ") completed");
      "SetFrequency(" + IntToString(f.Code()) + ") completed"
  }

  function IsTerminal(s: TaskStatus): bool {
    s == Completed || s == Failed
  }

  /**
   The callback protocol: ABORTED alone; or IN_PROGRESS, then at most one
   terminal update (none when an exception escaped the worker).
   */
  predicate FollowsProtocol(updates: seq<Update>) {
    || updates == [StatusOnly(Aborted)]
    || (&& 1 <= |updates| <= 2
        && updates[0].WithProgress? && updates[0].status == InProgress
        && (|updates| == 2 ==> updates[1].WithResult? && IsTerminal(updates[1].status)))
  }

  /**
   The worker `_set_attenuation` / `_set_frequency`: abort check, IN_PROGRESS
   with the arguments, the device mutator, then FAILED with the exception text
   or COMPLETED.
   */
  function Execute(job: Job, abortSet: bool, out: MutatorOutcome): (r: Run)
    ensures FollowsProtocol(r.updates)
    ensures abortSet ==> r.updates == [StatusOnly(Aborted)] && !r.mutatorCalled
    ensures !abortSet ==> r.mutatorCalled && r.updates[0] == WithProgress(InProgress, ProgressText(job))
    ensures r.escaped <==> !abortSet && out.OtherError?
    ensures (exists i :: 0 <= i < |r.updates| && r.updates[i].status == Failed) <==> !abortSet && out.DomainError?
    ensures (exists i :: 0 <= i < |r.updates| && r.updates[i].status == Completed) <==> !abortSet && out.Done?
    ensures !abortSet && out.Done? ==>
              r.updates == [WithProgress(InProgress, ProgressText(job)), WithResult(Completed, CompletionText(job))]
    ensures !abortSet && out.DomainError? ==>
              r.updates == [WithProgress(InProgress, ProgressText(job)), WithResult(Failed, FailureText(job, out.text))]
    ensures !abortSet && out.OtherError? ==> r.updates == [WithProgress(InProgress, ProgressText(job))]
  {
    if abortSet then Run([StatusOnly(Aborted)], false, false)
    else
      var started := WithProgress(InProgress, ProgressText(job));
      match out
      case DomainError(text) => Run([started, WithResult(Failed, FailureText(job, text))], true, false)
      case Done => Run([started, WithResult(Completed, CompletionText(job))], true, false)
      case OtherError => Run([started], true, true)
  }

  /**
   An admitted attenuation request, once run to success, reports both
   arguments in its IN_PROGRESS and COMPLETED texts.
   */
  lemma SubmittedAttenuationReportsArguments(db: int, register: string)
    ensures var a := SetAttenuation(db, register);
            var u := Execute(a.job, false, Done).updates;
            && |u| == 2 && u[0].status == InProgress && u[1].status == Completed
            && Contains(u[0].progress, IntToString(db)) && Contains(u[0].progress, register)
            && Contains(u[1].result, IntToString(db)) && Contains(u[1].result, register)
  {
  }

  /** FAILED and COMPLETED never both occur in one run. */
  lemma TerminalOutcomesExclusive(job: Job, abortSet: bool, out: MutatorOutcome)
    ensures var u := Execute(job, abortSet, out).updates;
            !((exists i :: 0 <= i < |u| && u[i].status == Failed) && (exists j :: 0 <= j < |u| && u[j].status == Completed))
  {
  }

  /** A FAILED attenuation result names the register and ends with the exception text. */
  lemma AttenuationFailureNamesRegister(db: int, reg: string, text: string)
    ensures var u := Execute(AttenuationJob(db, reg), false, DomainError(text)).updates;
            && u[1].status == Failed
            && Contains(u[1].result, reg)
            && EndsWith(u[1].result, text)
  {
    ContainsMiddle("An error occured on setting the B5dc attenuation on ", reg, ": " + text);
    assert "An error occured on setting the B5dc attenuation on " + reg + ": " + text
        == "An error occured on setting the B5dc attenuation on " + reg + (": " + text);
  }

  /** A FAILED frequency result ends with the exception text. */
  lemma FrequencyFailureEmbedsError(f: Frequency, text: string)
    ensures var u := Execute(FrequencyJob(f), false, DomainError(text)).updates;
            u[1].status == Failed && EndsWith(u[1].result, text)
  {
  }

  /** Progress and completion texts name the arguments; distinct arguments give distinct texts. */
  lemma AttenuationTextsNameArguments(db1: int, reg1: string, db2: int, reg2: string)
    ensures ProgressText(AttenuationJob(db1, reg1)) == ProgressText(AttenuationJob(db2, reg2)) ==> db1 == db2
    ensures Contains(CompletionText(AttenuationJob(db1, reg1)), reg1)
  {
    var pre := "Called SetAttenuation with args (attenuation_db=";
    if ProgressText(AttenuationJob(db1, reg1)) == ProgressText(AttenuationJob(db2, reg2)) {
      var d1 := IntToString(db1);
      var d2 := IntToString(db2);
      // the rendered number runs up to the first ',' after the prefix, and a number has none
      ProgressTextShape(db1, reg1);
      ProgressTextShape(db2, reg2);
      IntToStringHasNoComma(db1);
      IntToStringHasNoComma(db2);
      NumberThenComma(pre, d1, ", attn_reg_name=" + reg1 + ")", d2, ", attn_reg_name=" + reg2 + ")");
      IntToStringInjective(db1, db2);
    }
  }

  lemma ProgressTextShape(db: int, reg: string)
    ensures ProgressText(AttenuationJob(db, reg))
         == "Called SetAttenuation with args (attenuation_db=" + IntToString(db) + (", attn_reg_name=" + reg + ")")
  {
    var pre := "Called SetAttenuation with args (attenuation_db=";
    assert pre + IntToString(db) + ", attn_reg_name=" + reg + ")" == pre + IntToString(db) + (", attn_reg_name=" + reg + ")");
  }

  lemma NumberThenComma(pre: string, d1: string, t1: string, d2: string, t2: string)
    requires ',' !in d1 && ',' !in d2
    requires |t1| > 0 && |t2| > 0 && t1[0] == ',' && t2[0] == ','
    requires pre + d1 + t1 == pre + d2 + t2
    ensures d1 == d2
  {
    var s := pre + d1 + t1;
    assert s[|pre|..] == d1 + t1;
    assert (pre + d2 + t2)[|pre|..] == d2 + t2;
    FirstCommaAfter(d1, t1);
    FirstCommaAfter(d2, t2);
    assert d1 == (d1 + t1)[..|d1|];
    assert d2 == (d2 + t2)[..|d2|];
  }

  /** Index of the first ',' in `s` (|s| when there is none). */
  function FirstComma(s: string): nat
    decreases |s|
  {
    if |s| == 0 || s[0] == ',' then 0 else 1 + FirstComma(s[1..])
  }

  lemma {:induction false} FirstCommaAfter(d: string, t: string)
    requires ',' !in d && |t| > 0 && t[0] == ','
    ensures FirstComma(d + t) == |d|
    decreases |d|
  {
    if |d| > 0 {
      assert (d + t)[1..] == d[1..] + t;
      assert d[0] in d;
      assert forall c :: c in d[1..] ==> c in d;
      FirstCommaAfter(d[1..], t);
    } else {
      assert d + t == t;
    }
  }

  lemma IntToStringHasNoComma(i: int)
    ensures ',' !in IntToString(i)
  {
    IntToStringSymbols(i);
  }
}

=== FILE: proxy.dfy ===
/**
 The Tango device's translation layer: the device properties that configure
 the component manager, the state-key to attribute-name map the state-change
 callback uses, the sensor attribute readers, and the routing of the three
 device commands to the component manager.
 */
module Proxy {
  import opened Base
  import opened Text
  import opened State
  import opened Sync
  import Commands
  import Supervisor

  // ---------------------------------------------------------------------
  // Device properties
  // ---------------------------------------------------------------------

  /** Default of the `B5dc_endpoint` property. */
  const DefaultEndpoint: string := "127.0.0.1:10001"
  /** Default of the `B5dc_sensor_update_period` property. */
  const DefaultUpdatePeriod: string := "10"

  /** Why creating the component manager from the properties raises. */
  datatype ConfigError =
    | MissingPort                 // the endpoint has no ':' (IndexError on the second field)
    | NotAnInteger(text: string)  // int() rejects the text (ValueError)

  /**
   `create_component_manager`: the server address is the endpoint text before
   the first ':', the port is the integer value of the second ':'-separated
   field (any further fields are ignored), and the polling period is the
   integer value of the period property. The port is converted before the
   period, so a bad port is reported first.
   */
  function ParseConfig(endpoint: string, period: string): (r: Result<Config, ConfigError>)
    ensures r == Err(MissingPort) <==> ':' !in endpoint
    ensures r.Ok? ==> ':' !in r.value.serverIp && r.value.serverIp + ":" <= endpoint
    ensures r.Ok? ==> ParseInt(Split(endpoint, ':')[1]) == Some(r.value.serverPort)
    ensures r.Ok? ==> ParseInt(period) == Some(r.value.pollingPeriod)
    ensures ':' in endpoint && ParseInt(Split(endpoint, ':')[1]).None? ==> r == Err(NotAnInteger(Split(endpoint, ':')[1]))
    ensures ':' in endpoint && ParseInt(period).None? ==> r.Err?
  {
    FirstFieldIsPrefix(endpoint, ':');
    var fields := Split(endpoint, ':');
    var ip := fields[0];
    if |fields| < 2 then Err(MissingPort)
    else
      assert endpoint[..|ip| + 1] == ip + ":";
      match ParseInt(fields[1])
      case None => Err(NotAnInteger(fields[1]))
      case Some(port) =>
        match ParseInt(period)
        case None => Err(NotAnInteger(period))
        case Some(seconds) => Ok(Config(ip, port, seconds))
  }

  /** An endpoint written as "ip:port" from a colon-free address is read back as that address and port. */
  lemma EndpointRoundTrip(ip: string, port: int, period: int)
    requires ':' !in ip
    ensures ParseConfig(ip + ":" + IntToString(port), IntToString(period)) == Ok(Config(ip, port, period))
  {
    var portText := IntToString(port);
    IntToStringSymbols(port);
    assert ':' !in portText;
    SplitAtFirst(ip, portText, ':');
    SplitWithoutSeparator(portText, ':');
    ParseIntRoundTrip(port);
    ParseIntRoundTrip(period);
  }

  /** The default properties configure 127.0.0.1, port 10001, a ten-second period. */
  lemma DefaultConfig()
    ensures ParseConfig(DefaultEndpoint, DefaultUpdatePeriod) == Ok(Config("127.0.0.1", 10001, 10))
  {
    assert IntToString(10001) == "10001";
    assert IntToString(10) == "10";
    assert DefaultEndpoint == "127.0.0.1" + ":" + IntToString(10001);
    EndpointRoundTrip("127.0.0.1", 10001, 10);
  }

  // ---------------------------------------------------------------------
  // State-key to attribute-name translation
  // ---------------------------------------------------------------------

  /** `_component_state_attr_map`: component-state key to device attribute name. */
  const AttrMap: seq<(string, string)> := [
    ("buildstate", "buildState"),
    ("spi_rfcm_frequency", "rfcmFrequency"),
    ("spi_rfcm_pll_lock", "rfcmPllLock"),
    ("spi_rfcm_h_attenuation", "rfcmHAttenuation"),
    ("spi_rfcm_v_attenuation", "rfcmVAttenuation"),
    ("spi_rfcm_photo_diode_ain0", "clkPhotodiodeCurrent"),
    ("spi_rfcm_rf_in_h_ain1", "hPolRfPowerIn"),
    ("spi_rfcm_rf_in_v_ain2", "vPolRfPowerIn"),
    ("spi_rfcm_if_out_h_ain3", "hPolRfPowerOut"),
    ("spi_rfcm_if_out_v_ain4", "vPolRfPowerOut"),
    ("spi_rfcm_rf_temp_ain5", "rfTemperature"),
    ("spi_rfcm_psu_pcb_temp_ain7", "rfcmPsuPcbTemperature")]

  /** The map lists `buildstate` first and then the registers in register-map order. */
  lemma AttrMapFollowsRegisterMap()
    ensures |AttrMap| == RegisterCount + 1
    ensures AttrMap[0].0 == BuildStateKey
    ensures forall i :: 0 <= i < RegisterCount ==> AttrMap[i + 1].0 == Registers()[i]
  {
  }

  /** Neither the keys nor the attribute names of the map repeat. */
  lemma AttrMapDistinct()
    ensures forall i, j :: 0 <= i < j < |AttrMap| ==> AttrMap[i].0 != AttrMap[j].0
    ensures forall i, j :: 0 <= i < j < |AttrMap| ==> AttrMap[i].1 != AttrMap[j].1
  {
  }

  /** The keys the attribute map translates are exactly the published state keys. */
  lemma AttrMapKeysAreStateKeys()
    ensures forall k :: k in StateKeys() <==> exists i :: 0 <= i < |AttrMap| && AttrMap[i].0 == k
  {
    AttrMapFollowsRegisterMap();
    forall k | k in StateKeys()
      ensures exists i :: 0 <= i < |AttrMap| && AttrMap[i].0 == k
    {
      if k == BuildStateKey {
        assert AttrMap[0].0 == k;
      } else {
        var j :| 0 <= j < RegisterCount && Registers()[j] == k;
        assert AttrMap[j + 1].0 == k;
      }
    }
    forall k | exists i :: 0 <= i < |AttrMap| && AttrMap[i].0 == k
      ensures k in StateKeys()
    {
      var i :| 0 <= i < |AttrMap| && AttrMap[i].0 == k;
      StateKeysMembers();
      if i > 0 {
        assert Registers()[i - 1] == k;
      }
    }
  }

  /** The attribute a component-state key is published under; an unlisted key is its own name. */
  function AttrName(key: string): (name: string)
    ensures (forall i :: 0 <= i < |AttrMap| ==> AttrMap[i].0 != key) ==> name == key
    ensures forall i :: 0 <= i < |AttrMap| && AttrMap[i].0 == key ==> name == AttrMap[i].1
  {
    AttrMapDistinct();
    forall i | 0 <= i < |AttrMap| && AttrMap[i].0 == key
      ensures Lookup(AttrMap, key) == Some(AttrMap[i].1)
    {
      LookupFindsFirst(AttrMap, i);
    }
    Lookup(AttrMap, key).GetOr(key)
  }

  /** Distinct state keys are published under distinct attributes. */
  lemma AttrNameInjective(a: string, b: string)
    requires a in StateKeys() && b in StateKeys()
    requires AttrName(a) == AttrName(b)
    ensures a == b
  {
    AttrMapKeysAreStateKeys();
    AttrMapDistinct();
    var i :| 0 <= i < |AttrMap| && AttrMap[i].0 == a;
    var j :| 0 <= j < |AttrMap| && AttrMap[j].0 == b;
    assert AttrMap[i].1 == AttrMap[j].1;
  }

  /** The attribute each change is stored on, paired with its value. */
  function Translate<V>(changes: seq<(string, Value<V>)>): (named: seq<(string, Value<V>)>)
    ensures |named| == |changes|
    ensures forall i :: 0 <= i < |changes| ==> named[i] == (AttrName(changes[i].0), changes[i].1)
  {
    seq(|changes|, i requires 0 <= i < |changes| => (AttrName(changes[i].0), changes[i].1))
  }

  /** Some assignment in `named` sets attribute `name`. */
  ghost predicate Targets<V>(named: seq<(string, Value<V>)>, name: string) {
    exists i :: 0 <= i < |named| && named[i].0 == name
  }

  /** Assignment `i` is the last one that sets its attribute. */
  ghost predicate LastFor<V>(named: seq<(string, Value<V>)>, i: nat)
    requires i < |named|
  {
    forall j :: i < j < |named| ==> named[j].0 != named[i].0
  }

  /**
   The `setattr` loop: each (attribute, value) assignment in order. An
   attribute set twice keeps the later value; attributes no assignment names
   are left as they were.
   */
  function SetAttributes<V>(attrs: map<string, Value<V>>, named: seq<(string, Value<V>)>): (r: map<string, Value<V>>)
    ensures forall n :: n in r <==> n in attrs || Targets(named, n)
    ensures forall n :: n in attrs && !Targets(named, n) ==> r[n] == attrs[n]
    ensures forall i :: 0 <= i < |named| && LastFor(named, i) ==> named[i].0 in r && r[named[i].0] == named[i].1
    decreases |named|
  {
    if |named| == 0 then attrs
    else
      var tail := named[1..];
      var r := SetAttributes(attrs[named[0].0 := named[0].1], tail);
      assert forall i :: 1 <= i < |named| ==> named[i] == tail[i - 1];
      assert forall n :: Targets(named, n) <==> n == named[0].0 || Targets(tail, n);
      assert forall i :: 1 <= i < |named| && LastFor(named, i) ==> LastFor(tail, i - 1);
      r
  }

  /**
   `_component_state_changed`: each key/value pair, in order, is stored on the
   attribute its key translates to.
   */
  function ComponentStateChanged<V>(attrs: map<string, Value<V>>, changes: seq<(string, Value<V>)>): (r: map<string, Value<V>>)
    ensures forall n :: n in r <==> n in attrs || Targets(Translate(changes), n)
    ensures forall n :: n in attrs && !Targets(Translate(changes), n) ==> r[n] == attrs[n]
  {
    SetAttributes(attrs, Translate(changes))
  }

  /**
   A state update from the component manager (distinct state keys) lands each
   value on its own attribute, and changes nothing else.
   */
  lemma StateUpdateLandsOnAttributes<V>(attrs: map<string, Value<V>>, changes: seq<(string, Value<V>)>)
    requires forall i :: 0 <= i < |changes| ==> changes[i].0 in StateKeys()
    requires forall i, j :: 0 <= i < j < |changes| ==> changes[i].0 != changes[j].0
    ensures var r := ComponentStateChanged(attrs, changes);
            && (forall i :: 0 <= i < |changes| ==> AttrName(changes[i].0) in r && r[AttrName(changes[i].0)] == changes[i].1)
            && (forall n :: n in attrs && (forall i :: 0 <= i < |changes| ==> AttrName(changes[i].0) != n) ==> r[n] == attrs[n])
  {
    var named := Translate(changes);
    forall i | 0 <= i < |changes|
      ensures LastFor(named, i)
    {
      forall j | i < j < |changes|
        ensures AttrName(changes[j].0) != AttrName(changes[i].0)
      {
        if AttrName(changes[j].0) == AttrName(changes[i].0) {
          AttrNameInjective(changes[j].0, changes[i].0);
        }
      }
    }
  }

  // ---------------------------------------------------------------------
  // Attribute readers
  // ---------------------------------------------------------------------

  /** Each sensor attribute reader and the register it refreshes and reads. */
  const SensorReaders: seq<(string, string)> := [
    ("rfcmFrequency", "spi_rfcm_frequency"),
    ("rfcmPllLock", "spi_rfcm_pll_lock"),
    ("rfcmHAttenuation", "spi_rfcm_h_attenuation"),
    ("rfcmVAttenuation", "spi_rfcm_v_attenuation"),
    ("clkPhotodiodeCurrent", "spi_rfcm_photo_diode_ain0"),
    ("hPolRfPowerIn", "spi_rfcm_rf_in_h_ain1"),
    ("vPolRfPowerIn", "spi_rfcm_rf_in_v_ain2"),
    ("hPolRfPowerOut", "spi_rfcm_if_out_h_ain3"),
    ("vPolRfPowerOut", "spi_rfcm_if_out_v_ain4"),
    ("rfTemperature", "spi_rfcm_rf_temp_ain5"),
    ("rfcmPsuPcbTemperature", "spi_rfcm_psu_pcb_temp_ain7")]

  /**
   The readers agree with the attribute map: every register has exactly one
   reader, and it is the attribute the register's updates are published to.
   */
  lemma ReadersAgreeWithAttrMap()
    ensures |SensorReaders| == RegisterCount
    ensures forall i :: 0 <= i < RegisterCount ==> SensorReaders[i].1 == Registers()[i]
    ensures forall i :: 0 <= i < RegisterCount ==> AttrName(SensorReaders[i].1) == SensorReaders[i].0
    ensures forall i, j :: 0 <= i < j < |SensorReaders| ==> SensorReaders[i].0 != SensorReaders[j].0
  {
    AttrMapFollowsRegisterMap();
    ReadersMirrorAttrMap();
    ReadersDistinct();
  }

  lemma ReadersMirrorAttrMap()
    ensures |SensorReaders| == RegisterCount
    ensures forall i :: 0 <= i < RegisterCount ==> AttrMap[i + 1] == (SensorReaders[i].1, SensorReaders[i].0)
  {
  }

  lemma ReadersDistinct()
    ensures forall i, j :: 0 <= i < j < |SensorReaders| ==> SensorReaders[i].0 != SensorReaders[j].0
  {
  }

  /** The register an attribute's reader refreshes, or None if it is no sensor attribute. */
  function SensorRegister(attr: string): (r: Option<string>)
    ensures r.None? <==> forall i :: 0 <= i < |SensorReaders| ==> SensorReaders[i].0 != attr
    ensures r.Some? ==> IsRegister(r.value) && AttrName(r.value) == attr
  {
    ReadersAgreeWithAttrMap();
    Lookup(SensorReaders, attr)
  }

  /** Every register is read back by the reader of the attribute its updates go to. */
  lemma SensorRegisterOfAttrName(reg: string)
    requires IsRegister(reg)
    ensures SensorRegister(AttrName(reg)) == Some(reg)
  {
    ReadersAgreeWithAttrMap();
    var i :| 0 <= i < RegisterCount && Registers()[i] == reg;
    LookupFindsFirst(SensorReaders, i);
  }

  /** An attribute read: the manager after any refresh it requested, and the value returned. */
  datatype AttrRead<V> = AttrRead(m: Manager<V>, value: Value<V>)

  /**
   A sensor attribute read: request a refresh of the reader's register, then
   return its published value, or the register's default (0.0, NOT_LOCKED for
   the PLL lock) if the key is absent. None for a name that has no reader.
   */
  function ReadSensor<V>(m: Manager<V>, attr: string, out: Outcome<V>): (r: Option<AttrRead<V>>)
    ensures r.Some? <==> SensorRegister(attr).Some?
    ensures r.Some? ==>
              var reg := SensorRegister(attr).value;
              && r.value.m.config == m.config && r.value.m.connected == m.connected
              && (forall k :: k != reg && k in m.published ==> k in r.value.m.published && r.value.m.published[k] == m.published[k])
              && (m.connected && out.Updated? ==> r.value.value == Reading(out.value) && r.value.m.comm == Established)
              && (!(m.connected && out.Updated?) ==> r.value.m == m)
              && (!(m.connected && out.Updated?) && reg in m.published ==> r.value.value == m.published[reg])
              && (!(m.connected && out.Updated?) && reg !in m.published ==> r.value.value == RegisterDefault(reg))
  {
    match SensorRegister(attr)
    case None => None
    case Some(reg) =>
      var refreshed := SyncOutside(m, reg, out);
      var state := refreshed.m.published;
      Some(AttrRead(refreshed.m, if reg in state then state[reg] else RegisterDefault(reg)))
  }

  /** A sensor read keeps the manager invariant and never touches the build state. */
  lemma ReadSensorKeepsBuildState<V>(m: Manager<V>, attr: string, out: Outcome<V>)
    requires Valid(m) && SensorRegister(attr).Some?
    ensures Valid(ReadSensor(m, attr, out).value.m)
    ensures ReadSensor(m, attr, out).value.m.published[BuildStateKey] == m.published[BuildStateKey]
  {
    var reg := SensorRegister(attr).value;
    SyncOutsideValid(m, reg, out);
    RegistersDistinct();
    StateKeysMembers();
  }

  /** Before any connection, every sensor attribute reads its register's default. */
  lemma FreshDeviceReadsDefaults<V>(config: Config, attr: string, out: Outcome<V>)
    requires SensorRegister(attr).Some?
    ensures ReadSensor(NewManager<V>(config), attr, out).value.value == RegisterDefault(SensorRegister(attr).value)
  {
  }

  /** Reading a sensor twice with the same device answer returns the same value both times. */
  lemma ReadSensorRepeatable<V>(m: Manager<V>, attr: string, out: Outcome<V>)
    requires SensorRegister(attr).Some?
    ensures var first := ReadSensor(m, attr, out).value;
            ReadSensor(first.m, attr, out).value == first
  {
    var reg := SensorRegister(attr).value;
    SyncOutsideIdempotent(m, reg, out);
  }

  /** `buildState`: the published `buildstate` value, with no refresh; None if the key is absent. */
  function ReadBuildState<V>(m: Manager<V>): (r: Option<Value<V>>)
    ensures r.Some? <==> BuildStateKey in m.published
    ensures r.Some? ==> r.value == m.published[BuildStateKey]
    ensures Valid(m) ==> r.Some?
  {
    StateKeysMembers();
    if BuildStateKey in m.published then Some(m.published[BuildStateKey]) else None
  }

  /**
   After a connect cycle that reached polling, `buildState` reads the record
   that cycle built, however the connection ended; before any connection it
   reads the empty string.
   */
  lemma BuildStateAfterConnect<V>(m: Manager<V>, deviceName: string, c: Supervisor.CycleInput<V>)
    requires Valid(m) && !m.connected && Supervisor.CoversRegisters(c.sensors)
    requires !Supervisor.Fails(c)
    ensures ReadBuildState(Supervisor.Cycle(m, deviceName, c).m)
            == Some(BuildDoc(Supervisor.BuildRecord(deviceName, m.config.serverIp, c.build).value))
    ensures ReadBuildState(NewManager<V>(m.config)) == Some(Text(""))
  {
    StateKeysMembers();
  }

  // ---------------------------------------------------------------------
  // Commands
  // ---------------------------------------------------------------------

  /** The three device commands and their integer argument. */
  datatype DeviceCommand =
    | SetHPolAttenuation(db: int)
    | SetVPolAttenuation(db: int)
    | SetFrequency(frequency: int)

  /**
   The component-manager call each command makes: the two attenuation
   commands forward their own polarisation's register, the frequency command
   forwards its value.
   */
  function Route(cmd: DeviceCommand): (a: Commands.Admission)
    ensures cmd.SetHPolAttenuation? ==> a == Commands.SetAttenuation(cmd.db, HAttenuationRegister)
    ensures cmd.SetVPolAttenuation? ==> a == Commands.SetAttenuation(cmd.db, VAttenuationRegister)
    ensures cmd.SetFrequency? ==> a == Commands.SetFrequency(cmd.frequency)
  {
    match cmd
    case SetHPolAttenuation(db) => Commands.SetAttenuation(db, HAttenuationRegister)
    case SetVPolAttenuation(db) => Commands.SetAttenuation(db, VAttenuationRegister)
    case SetFrequency(f) => Commands.SetFrequency(f)
  }

  /**
   Each attenuation command writes the register read back by its own
   polarisation's attribute, and the two polarisations never share one.
   */
  lemma AttenuationRoutesToOwnPolarisation(db: int)
    ensures Route(SetHPolAttenuation(db)).job.register != Route(SetVPolAttenuation(db)).job.register
    ensures SensorRegister("rfcmHAttenuation") == Some(Route(SetHPolAttenuation(db)).job.register)
    ensures SensorRegister("rfcmVAttenuation") == Some(Route(SetVPolAttenuation(db)).job.register)
    ensures Route(SetHPolAttenuation(db)).job.db == db && Route(SetVPolAttenuation(db)).job.db == db
  {
    var h := Route(SetHPolAttenuation(db));
    var v := Route(SetVPolAttenuation(db));
    assert h.job.register == HAttenuationRegister && v.job.register == VAttenuationRegister;
    AttenuationAttributes();
    SensorRegisterOfAttrName(HAttenuationRegister);
    SensorRegisterOfAttrName(VAttenuationRegister);
  }

  lemma AttenuationAttributes()
    ensures IsRegister(HAttenuationRegister) && AttrName(HAttenuationRegister) == "rfcmHAttenuation"
    ensures IsRegister(VAttenuationRegister) && AttrName(VAttenuationRegister) == "rfcmVAttenuation"
  {
    assert AttrMap[3] == (HAttenuationRegister, "rfcmHAttenuation");
    assert AttrMap[4] == (VAttenuationRegister, "rfcmVAttenuation");
    assert Registers()[2] == HAttenuationRegister && Registers()[3] == VAttenuationRegister;
  }

  /** The reply of a command: the handler's result code and identifier, each in a one-element list. */
  datatype Reply<C> = Reply(codes: seq<C>, ids: seq<string>)

  /**
   A device command: route it, hand the admission to the command handler (the
   base-class slow-command wrapper, an oracle here) and wrap what it returns.
   */
  function Invoke<C>(cmd: DeviceCommand, handler: Commands.Admission -> (C, string)): (r: Reply<C>)
    ensures |r.codes| == 1 && |r.ids| == 1
    ensures (r.codes[0], r.ids[0]) == handler(Route(cmd))
  {
    var handled := handler(Route(cmd));
    Reply([handled.0], [handled.1])
  }

  /**
   An out-of-range frequency never reaches the executor whatever the handler
   does with it, and a valid one is submitted as its enum member, gated on the
   connected flag.
   */
  lemma FrequencyCommandAdmission(value: int)
    ensures Route(SetFrequency(value)).Refused? <==> !(1 <= value <= 3)
    ensures Route(SetFrequency(value)).Refused? ==>
              Route(SetFrequency(value)).message == Commands.InvalidFrequencyMessage(value)
    ensures 1 <= value <= 3 ==>
              Route(SetFrequency(value)) == Commands.Submitted(Commands.FrequencyJob(Commands.FrequencyOf(value).value), Commands.WhenConnected)
  {
  }
}

=== FILE: state.dfy ===
/**
 The component manager's published state: the register map, the state keys,
 their default values, connectivity and the connected flag.
 */
module State {
  import opened Base
  import BuildState

  /** Communication status published to the device (DISABLED before start). */
  datatype CommStatus = Disabled | NotEstablished | Established

  /**
   A published value. `Zero` is the float default 0.0 and `NotLocked` the PLL
   lock default; `Reading` carries an opaque sensor value read from the device;
   `Text` is a plain string and `BuildDoc` the serialised build-state record.
   */
  datatype Value<V> = Zero | NotLocked | Reading(v: V) | Text(s: string) | BuildDoc(rec: BuildState.BuildStateRecord)

  /** Register name to sensor attribute name, in the map's insertion order. */
  const RegisterMap: seq<(string, string)> := [
    ("spi_rfcm_frequency", "rfcm_frequency"),
    ("spi_rfcm_pll_lock", "rfcm_pll_lock"),
    ("spi_rfcm_h_attenuation", "rfcm_h_attenuation_db"),
    ("spi_rfcm_v_attenuation", "rfcm_v_attenuation_db"),
    ("spi_rfcm_photo_diode_ain0", "clk_photodiode_current_ma"),
    ("spi_rfcm_rf_in_h_ain1", "h_pol_rf_power_in_dbm"),
    ("spi_rfcm_rf_in_v_ain2", "v_pol_rf_power_in_dbm"),
    ("spi_rfcm_if_out_h_ain3", "h_pol_if_power_out_dbm"),
    ("spi_rfcm_if_out_v_ain4", "v_pol_if_power_out_dbm"),
    ("spi_rfcm_rf_temp_ain5", "rf_temperature_degc"),
    ("spi_rfcm_psu_pcb_temp_ain7", "rfcm_psu_pcb_temperature_degc")]

  const RegisterCount: nat := 11

  const PllLockRegister: string := "spi_rfcm_pll_lock"
  const HAttenuationRegister: string := "spi_rfcm_h_attenuation"
  const VAttenuationRegister: string := "spi_rfcm_v_attenuation"
  const BuildStateKey: string := "buildstate"

  /** The registers in poll order. */
  function Registers(): (regs: seq<string>)
    ensures |regs| == RegisterCount
    ensures forall i :: 0 <= i < RegisterCount ==> regs[i] == RegisterMap[i].0
  {
    seq(RegisterCount, i requires 0 <= i < RegisterCount => RegisterMap[i].0)
  }

  predicate IsRegister(name: string) {
    name in Registers()
  }

  /** Every published key: the registers plus `buildstate`. */
  function StateKeys(): set<string> {
    set r | r in Registers() + [BuildStateKey]
  }

  lemma StateKeysMembers()
    ensures BuildStateKey in StateKeys()
    ensures forall r :: r in Registers() ==> r in StateKeys()
  {
  }

  lemma RegistersDistinct()
    ensures forall i, j :: 0 <= i < j < |Registers()| ==> Registers()[i] != Registers()[j]
    ensures BuildStateKey !in Registers()
  {
  }

  /** The value a register takes before it is first read. */
  function RegisterDefault<V>(reg: string): Value<V> {
    if reg == PllLockRegister then NotLocked else Zero
  }

  /** The component state the manager is constructed with. */
  function InitialState<V>(): (state: map<string, Value<V>>)
    ensures state.Keys == StateKeys()
    ensures forall r :: r in Registers() ==> state[r] == RegisterDefault(r)
    ensures state[BuildStateKey] == Text("")
  {
    map k | k in StateKeys() :: if k == BuildStateKey then Text("") else RegisterDefault(k)
  }

  /** The initial state has exactly twelve keys, and only the PLL lock defaults to NotLocked. */
  lemma InitialStateShape<V>()
    ensures |InitialState<V>().Keys| == RegisterCount + 1
    ensures forall k :: k in InitialState<V>() && InitialState<V>()[k] == NotLocked ==> k == PllLockRegister
    ensures forall r :: IsRegister(r) && r != PllLockRegister ==> InitialState<V>()[r] == Zero
  {
    RegistersDistinct();
    var regs := Registers() + [BuildStateKey];
    SeqToSetSize(regs);
  }

  lemma {:induction false} SeqToSetSize(s: seq<string>)
    requires forall i, j :: 0 <= i < j < |s| ==> s[i] != s[j]
    ensures |set x | x in s| == |s|
    decreases |s|
  {
    if |s| > 0 {
      var tail := s[1..];
      SeqToSetSize(tail);
      assert (set x | x in s) == (set x | x in tail) + {s[0]};
      assert s[0] !in (set x | x in tail) by {
        forall j | 0 <= j < |tail|
          ensures tail[j] != s[0]
        {
          assert tail[j] == s[j + 1];
        }
      }
    }
  }

  /** Server address and polling period, fixed at construction. */
  datatype Config = Config(serverIp: string, serverPort: int, pollingPeriod: int)

  /**
   The component manager: published component state, communication status,
   the connected flag, and the sensor values the current device facade holds
   (keyed by register name).
   */
  datatype Manager<V> = Manager(
    config: Config,
    published: map<string, Value<V>>,
    comm: CommStatus,
    connected: bool,
    facade: map<string, V>)

  /** Invariant of every reachable manager. */
  predicate Valid<V>(m: Manager<V>) {
    && m.published.Keys == StateKeys()
    && (m.connected ==> forall r :: r in Registers() ==> r in m.facade)
  }

  /** A freshly constructed manager: defaults published, not connected, no facade. */
  function NewManager<V>(config: Config): (m: Manager<V>)
    ensures Valid(m)
    ensures !m.connected && m.comm == Disabled
    ensures m.published == InitialState()
  {
    Manager(config, InitialState(), Disabled, false, map[])
  }
}

=== FILE: supervisor.dfy ===
/**
 Connection supervision: starting communication, the build-state record
 published on every connect, and the reconnect loop as a sequence of connect
 cycles. Each cycle is atomic here; the steps it takes are recorded as a trace
 of actions, and a small lifecycle monitor states which orders are allowed.
 */
module Supervisor {
  import opened Base
  import opened State
  import opened Sync
  import opened BuildState
  import opened Text

  /** WAIT_BEFORE_CONNECTION_RETRY_SEC. */
  const RetryDelaySeconds: nat := 5

  const BuildFailureText: string := "Failed to retrieve build state data for band 5 down converter."

  /** What the physical-configuration reader reports. */
  datatype PcaInfo = PcaInfo(
    version: string,
    commsEngineVersion: string,
    rfcmPsuVersion: string,
    rfcmPcbVersion: string,
    backplaneVersion: string,
    psuVersion: string,
    icdVersion: string)

  /** What the firmware reader reports. */
  datatype FirmwareInfo = FirmwareInfo(modelName: string, buildTime: string)

  /** The build-state readers as the connect cycle finds them. */
  datatype BuildInput =
    | ReadersMissing                                   // a reader object is None
    | ReadersPresent(pca: PcaInfo, fw: FirmwareInfo)   // both readers answered
    | ReadFailed                                       // a reader raised (e.g. a protocol timeout)

  function FirmwareFile(model: string, buildTime: string): string {
    model + "_" + buildTime + ".fpg"
  }

  /**
   `_update_build_state`: the populated record when both readers exist, the
   degraded record (failure text in `device_ip`) when one is missing, and None
   when a reader raises, which ends the connection task.
   */
  function BuildRecord(deviceName: string, serverIp: string, input: BuildInput): (r: Option<BuildStateRecord>)
    ensures r.None? <==> input.ReadFailed?
    ensures r.Some? ==> r.value.device == deviceName
    ensures input.ReadersMissing? ==>
              r.value.deviceIp == BuildFailureText && forall i :: 2 <= i < FieldCount ==> Field(r.value, i) == ""
    ensures input.ReadersPresent? ==>
              && r.value.deviceIp == serverIp
              && r.value.fpgaFirmwareFile == FirmwareFile(input.fw.modelName, input.fw.buildTime)
              && r.value.deviceVersion == input.pca.version
              && r.value.commsEngineVersion == input.pca.commsEngineVersion
              && r.value.rfcmPsuVersion == input.pca.rfcmPsuVersion
              && r.value.rfcmPcbVersion == input.pca.rfcmPcbVersion
              && r.value.backplaneVersion == input.pca.backplaneVersion
              && r.value.psuVersion == input.pca.psuVersion
              && r.value.icdVersion == input.pca.icdVersion
  {
    match input
    case ReadFailed => None
    case ReadersMissing => Some(Partial(deviceName, BuildFailureText))
    case ReadersPresent(pca, fw) =>
      Some(BuildStateRecord(
        deviceName, serverIp, pca.version, pca.commsEngineVersion, pca.rfcmPsuVersion,
        pca.rfcmPcbVersion, pca.backplaneVersion, pca.psuVersion, pca.icdVersion,
        FirmwareFile(fw.modelName, fw.buildTime)))
  }

  /** Reading the serialised degraded record back: the failure text and eight empty fields. */
  lemma DegradedRecordSerialised(deviceName: string, serverIp: string)
    ensures var rec := BuildRecord(deviceName, serverIp, ReadersMissing).value;
            && Lookup(AsPairs(rec), "device") == Some(deviceName)
            && Lookup(AsPairs(rec), "device_ip") == Some(BuildFailureText)
            && forall i :: 2 <= i < FieldCount ==> Lookup(AsPairs(rec), FieldNames[i]) == Some("")
  {
    var rec := BuildRecord(deviceName, serverIp, ReadersMissing).value;
    LookupAsPairs(rec, 0);
    LookupAsPairs(rec, 1);
    forall i | 2 <= i < FieldCount
      ensures Lookup(AsPairs(rec), FieldNames[i]) == Some("")
    {
      LookupAsPairs(rec, i);
    }
  }

  /** Reading the serialised populated record back: the server address and the firmware file name. */
  lemma PopulatedRecordSerialised(deviceName: string, serverIp: string, pca: PcaInfo, fw: FirmwareInfo)
    ensures var rec := BuildRecord(deviceName, serverIp, ReadersPresent(pca, fw)).value;
            && Lookup(AsPairs(rec), "device_ip") == Some(serverIp)
            && Lookup(AsPairs(rec), "comms_engine_version") == Some(pca.commsEngineVersion)
            && Lookup(AsPairs(rec), "fpga_firmware_file") == Some(fw.modelName + "_" + fw.buildTime + ".fpg")
  {
    var rec := BuildRecord(deviceName, serverIp, ReadersPresent(pca, fw)).value;
    assert FieldNames[1] == "device_ip" && Field(rec, 1) == serverIp;
    assert FieldNames[3] == "comms_engine_version" && Field(rec, 3) == pca.commsEngineVersion;
    assert FieldNames[9] == "fpga_firmware_file" && Field(rec, 9) == FirmwareFile(fw.modelName, fw.buildTime);
    LookupAsPairs(rec, 1);
    LookupAsPairs(rec, 3);
    LookupAsPairs(rec, 9);
  }

  /** One step of the supervisor, as observed from outside. */
  datatype Action =
    | PublishComm(status: CommStatus)
    | SpawnLoop
    | OpenTransport
    | OpenFailed
    | RebuildFacade
    | PublishBuild(rec: BuildStateRecord)
    | SetFlag
    | StartPoll
    | Poll(accessed: seq<string>)
    | CancelPoll
    | ClearFlag
    | CloseTransport
    | RetryDelay
    | Halt

  /** `start_communicating`: publish NOT_ESTABLISHED, then start the loop thread. */
  function StartCommunicating<V>(m: Manager<V>): (r: (Manager<V>, seq<Action>))
    ensures r.0.comm == NotEstablished && r.1 == [PublishComm(NotEstablished), SpawnLoop]
    ensures r.0.published == m.published && r.0.connected == m.connected
  {
    (m.(comm := NotEstablished), [PublishComm(NotEstablished), SpawnLoop])
  }

  /**
   Inputs of one connect cycle: whether the datagram endpoint could be
   created, the build-state readers, the new facade's values, and the poll
   passes run before the connection is lost.
   */
  datatype CycleInput<V> = CycleInput(endpointCreated: bool, build: BuildInput, sensors: map<string, V>, passes: seq<Device<V>>)

  /** A cycle that ends the connection task: the endpoint cannot be created or a build-state reader raises. */
  predicate Fails<V>(c: CycleInput<V>) {
    !c.endpointCreated || c.build.ReadFailed?
  }

  predicate CoversRegisters<V>(sensors: map<string, V>) {
    forall r :: r in Registers() ==> r in sensors
  }

  /** No register occurs more than MAX_RETRY_COUNT times in the accesses of one pass. */
  ghost predicate WithinRetryBudget(accessed: seq<string>) {
    forall x :: multiset(accessed)[x] <= MaxRetryCount
  }

  /**
   The poll loop while connected: one full pass per device oracle, with the
   registers each pass attempted.
   */
  function RunPasses<V>(m: Manager<V>, passes: seq<Device<V>>): (r: (Manager<V>, seq<seq<string>>))
    requires Valid(m) && m.connected
    ensures Valid(r.0) && r.0.connected && r.0.config == m.config
    ensures r.0.published[BuildStateKey] == m.published[BuildStateKey]
    ensures |r.1| == |passes|
    ensures forall i :: 0 <= i < |r.1| ==> WithinRetryBudget(r.1[i])
    decreases |passes|
  {
    if |passes| == 0 then (m, [])
    else
      var pass := UpdateAllRegisters(m, passes[0]);
      var rest := RunPasses(pass.m, passes[1..]);
      BudgetPrepend(pass.accessed, rest.1);
      (rest.0, [pass.accessed] + rest.1)
  }

  lemma BudgetPrepend(first: seq<string>, rest: seq<seq<string>>)
    requires forall x :: multiset(first)[x] <= MaxRetryCount
    requires forall i :: 0 <= i < |rest| ==> WithinRetryBudget(rest[i])
    ensures forall i :: 0 <= i < |[first] + rest| ==> WithinRetryBudget(([first] + rest)[i])
  {
    var all := [first] + rest;
    forall i | 0 <= i < |all|
      ensures WithinRetryBudget(all[i])
    {
      if i > 0 {
        assert all[i] == rest[i - 1];
      }
    }
  }

  /** One Poll action per pass, listing the registers that pass accessed. */
  function PollActions(accessed: seq<seq<string>>): (polls: seq<Action>)
    ensures |polls| == |accessed|
    ensures forall i :: 0 <= i < |polls| ==> polls[i] == Poll(accessed[i])
  {
    seq(|accessed|, i requires 0 <= i < |accessed| => Poll(accessed[i]))
  }

  datatype CycleResult<V> = CycleResult(m: Manager<V>, trace: seq<Action>, halted: bool)

  function LossTrace(): seq<Action> {
    [PublishComm(NotEstablished), CancelPoll, ClearFlag, CloseTransport, RetryDelay]
  }

  /**
   One iteration of `_establish_server_connection`. If the endpoint cannot
   be created the exception ends the task. Otherwise: open the transport,
   rebuild the facade, publish the build state, set the connected flag, poll
   until the connection is lost, then publish NOT_ESTABLISHED, cancel polling,
   clear the flag, close the transport and wait before the next attempt.
   */
  function Cycle<V>(m: Manager<V>, deviceName: string, c: CycleInput<V>): (r: CycleResult<V>)
    requires Valid(m) && !m.connected && CoversRegisters(c.sensors)
    ensures Valid(r.m) && !r.m.connected && r.m.config == m.config
    ensures r.halted <==> Fails(c)
    ensures !c.endpointCreated ==> r.m == m && r.trace == [OpenFailed, Halt]
    ensures !r.halted ==> r.m.comm == NotEstablished
    ensures !r.halted ==> r.m.published[BuildStateKey] == BuildDoc(BuildRecord(deviceName, m.config.serverIp, c.build).value)
    ensures c.endpointCreated && c.build.ReadFailed? ==> r.trace == [OpenTransport, RebuildFacade, Halt]
    ensures !r.halted ==> IsConnectedTrace(r.trace)
  {
    if !c.endpointCreated then CycleResult(m, [OpenFailed, Halt], true)
    else
    var rebuilt := m.(facade := c.sensors);
    match BuildRecord(deviceName, m.config.serverIp, c.build)
    case None => CycleResult(rebuilt, [OpenTransport, RebuildFacade, Halt], true)
    case Some(rec) =>
      StateKeysMembers();
      var built := rebuilt.(published := rebuilt.published[BuildStateKey := BuildDoc(rec)]);
      var polls := RunPasses(built.(connected := true), c.passes);
      var lost := polls.0.(comm := NotEstablished, connected := false);
      var trace := ConnectedTrace(rec, PollActions(polls.1));
      CycleResult(lost, trace, false)
  }

  function ConnectedTrace(rec: BuildStateRecord, polls: seq<Action>): seq<Action> {
    [OpenTransport, RebuildFacade, PublishBuild(rec), SetFlag, StartPoll] + polls + LossTrace()
  }

  /** The shape of a connect cycle that reached the polling phase. */
  ghost predicate IsConnectedTrace(t: seq<Action>) {
    exists rec: BuildStateRecord, polls: seq<Action> ::
      && t == ConnectedTrace(rec, polls)
      && forall i :: 0 <= i < |polls| ==> polls[i].Poll?
  }

  /** The reconnect loop over a finite prefix of its cycles; it stops for good if a cycle halts. */
  function Supervise<V>(m: Manager<V>, deviceName: string, cycles: seq<CycleInput<V>>): (r: CycleResult<V>)
    requires Valid(m) && !m.connected
    requires forall i :: 0 <= i < |cycles| ==> CoversRegisters(cycles[i].sensors)
    ensures Valid(r.m) && !r.m.connected && r.m.config == m.config
    ensures r.halted <==> exists i :: 0 <= i < |cycles| && Fails(cycles[i])
    ensures !r.halted && |cycles| > 0 ==> r.m.comm == NotEstablished
    decreases |cycles|
  {
    if |cycles| == 0 then CycleResult(m, [], false)
    else
      var first := Cycle(m, deviceName, cycles[0]);
      if first.halted then
        assert Fails(cycles[0]);
        first
      else
        var rest := Supervise(first.m, deviceName, cycles[1..]);
        FailsLater(cycles);
        CycleResult(rest.m, first.trace + rest.trace, rest.halted)
  }

  /** When the first cycle does not fail, a failing cycle is one of the rest. */
  lemma FailsLater<V>(cycles: seq<CycleInput<V>>)
    requires |cycles| > 0 && !Fails(cycles[0])
    ensures (exists i :: 0 <= i < |cycles| && Fails(cycles[i])) <==>
            (exists i :: 0 <= i < |cycles[1..]| && Fails(cycles[1..][i]))
  {
    if exists i :: 0 <= i < |cycles| && Fails(cycles[i]) {
      var i :| 0 <= i < |cycles| && Fails(cycles[i]);
      assert cycles[1..][i - 1] == cycles[i];
    }
    if exists i :: 0 <= i < |cycles[1..]| && Fails(cycles[1..][i]) {
      var i :| 0 <= i < |cycles[1..]| && Fails(cycles[1..][i]);
      assert cycles[i + 1] == cycles[1..][i];
    }
  }

  // ---------------------------------------------------------------------
  // Lifecycle monitor: an independent statement of the allowed orders.
  // ---------------------------------------------------------------------

  /** What the monitor remembers since the last transport was opened. */
  datatype Phase = Phase(open: bool, rebuilt: bool, built: bool, flag: bool, polling: bool, reported: bool)

  const Idle: Phase := Phase(false, false, false, false, false, false)

  /**
   The transitions the lifecycle allows: one transport at a time; the flag is
   set only after the facade is rebuilt and the build state published; polls
   run only while the flag is set and polling is on; on loss NOT_ESTABLISHED
   is published before polling is cancelled, polling is cancelled before the
   flag is cleared, and the transport is closed only after both.
   */
  function Step(p: Phase, a: Action): Option<Phase> {
    match a
    case OpenTransport =>
      if !p.open && !p.flag && !p.polling then Some(Phase(true, false, false, false, false, false)) else None
    case OpenFailed => if !p.open && !p.flag && !p.polling then Some(p) else None
    case RebuildFacade => if p.open && !p.flag then Some(p.(rebuilt := true, built := false)) else None
    case PublishBuild(_) => if p.open && p.rebuilt && !p.built then Some(p.(built := true)) else None
    case SetFlag => if p.open && p.rebuilt && p.built && !p.flag then Some(p.(flag := true)) else None
    case StartPoll => if p.flag && !p.polling then Some(p.(polling := true)) else None
    case Poll(_) => if p.flag && p.polling then Some(p) else None
    case PublishComm(s) => if s == NotEstablished && p.polling then Some(p.(reported := true)) else Some(p)
    case CancelPoll => if p.polling && p.reported then Some(p.(polling := false)) else None
    case ClearFlag => if p.flag && !p.polling then Some(p.(flag := false)) else None
    case CloseTransport => if p.open && !p.flag && !p.polling then Some(Idle) else None
    case RetryDelay => if !p.open then Some(p) else None
    case SpawnLoop => Some(p)
    case Halt => Some(p)
  }

  /** The phase after replaying `trace` from `p`, or None if some step is not allowed. */
  function Replay(p: Phase, trace: seq<Action>): Option<Phase>
    decreases |trace|
  {
    if |trace| == 0 then Some(p)
    else match Step(p, trace[0])
      case None => None
      case Some(q) => Replay(q, trace[1..])
  }

  lemma {:induction false} ReplayAppend(p: Phase, a: seq<Action>, b: seq<Action>)
    ensures Replay(p, a + b) == (match Replay(p, a) case None => None case Some(q) => Replay(q, b))
    decreases |a|
  {
    if |a| > 0 {
      assert (a + b)[0] == a[0];
      assert (a + b)[1..] == a[1..] + b;
      match Step(p, a[0])
      case None =>
        assert Replay(p, a) == None;
        assert Replay(p, a + b) == None;
      case Some(q) =>
        assert Replay(p, a) == Replay(q, a[1..]);
        assert Replay(p, a + b) == Replay(q, a[1..] + b);
        ReplayAppend(q, a[1..], b);
    } else {
      assert a + b == b;
    }
  }

  lemma {:induction false} ReplayPolls(p: Phase, polls: seq<Action>)
    requires p.flag && p.polling
    requires forall i :: 0 <= i < |polls| ==> polls[i].Poll?
    ensures Replay(p, polls) == Some(p)
    decreases |polls|
  {
    if |polls| > 0 {
      ReplayPolls(p, polls[1..]);
    }
  }

  /** A connected cycle goes from Idle back to Idle. */
  lemma ConnectedTraceFollowsLifecycle(rec: BuildStateRecord, polls: seq<Action>)
    requires forall i :: 0 <= i < |polls| ==> polls[i].Poll?
    ensures Replay(Idle, ConnectedTrace(rec, polls)) == Some(Idle)
  {
    var head := [OpenTransport, RebuildFacade, PublishBuild(rec), SetFlag, StartPoll];
    var polling := Phase(true, true, true, true, true, false);
    assert Replay(polling, []) == Some(polling);
    assert Replay(polling.(polling := false), [StartPoll]) == Some(polling);
    assert Replay(Phase(true, true, true, false, false, false), [SetFlag, StartPoll]) == Some(polling);
    assert Replay(Phase(true, true, false, false, false, false), [PublishBuild(rec), SetFlag, StartPoll]) == Some(polling);
    assert Replay(Phase(true, false, false, false, false, false), head[1..]) == Some(polling);
    assert Replay(Idle, head) == Some(polling);
    ReplayPolls(polling, polls);
    ReplayAppend(Idle, head, polls);
    ReplayAppend(Idle, head + polls, LossTrace());
  }

  /** A completed cycle is a valid lifecycle from Idle back to Idle; a halted one is valid too. */
  lemma CycleFollowsLifecycle<V>(m: Manager<V>, deviceName: string, c: CycleInput<V>)
    requires Valid(m) && !m.connected && CoversRegisters(c.sensors)
    ensures var r := Cycle(m, deviceName, c);
            Replay(Idle, r.trace).Some? && (!r.halted ==> Replay(Idle, r.trace) == Some(Idle))
  {
    var r := Cycle(m, deviceName, c);
    if !r.halted {
      var rec: BuildStateRecord, polls: seq<Action> :|
        r.trace == ConnectedTrace(rec, polls) && forall i :: 0 <= i < |polls| ==> polls[i].Poll?;
      ConnectedTraceFollowsLifecycle(rec, polls);
    }
  }

  /** Number of build-state publications in a trace. */
  function Builds(trace: seq<Action>): nat
    decreases |trace|
  {
    if |trace| == 0 then 0 else (if trace[0].PublishBuild? then 1 else 0) + Builds(trace[1..])
  }

  /** Number of attempts to open a transport in a trace, successful or not. */
  function Opens(trace: seq<Action>): nat
    decreases |trace|
  {
    if |trace| == 0 then 0 else (if trace[0].OpenTransport? || trace[0].OpenFailed? then 1 else 0) + Opens(trace[1..])
  }

  lemma {:induction false} CountsAppend(a: seq<Action>, b: seq<Action>)
    ensures Builds(a + b) == Builds(a) + Builds(b)
    ensures Opens(a + b) == Opens(a) + Opens(b)
    decreases |a|
  {
    if |a| > 0 {
      assert (a + b)[0] == a[0];
      assert (a + b)[1..] == a[1..] + b;
      CountsAppend(a[1..], b);
      assert Builds(a + b) == (if a[0].PublishBuild? then 1 else 0) + Builds(a[1..] + b);
      assert Opens(a + b) == (if a[0].OpenTransport? || a[0].OpenFailed? then 1 else 0) + Opens(a[1..] + b);
    } else {
      assert a + b == b;
    }
  }

  lemma {:induction false} PollsCountNothing(polls: seq<Action>)
    requires forall i :: 0 <= i < |polls| ==> polls[i].Poll?
    ensures Builds(polls) == 0 && Opens(polls) == 0
    decreases |polls|
  {
    if |polls| > 0 {
      PollsCountNothing(polls[1..]);
    }
  }

  lemma ConnectedTraceCounts(rec: BuildStateRecord, polls: seq<Action>)
    requires forall i :: 0 <= i < |polls| ==> polls[i].Poll?
    ensures Opens(ConnectedTrace(rec, polls)) == 1 && Builds(ConnectedTrace(rec, polls)) == 1
  {
    var head := [OpenTransport, RebuildFacade, PublishBuild(rec), SetFlag, StartPoll];
    assert Opens([StartPoll]) == 0 && Builds([StartPoll]) == 0;
    assert Opens([SetFlag, StartPoll]) == 0 && Builds([SetFlag, StartPoll]) == 0;
    assert Opens(head[2..]) == 0 && Builds(head[2..]) == 1;
    assert Opens(head[1..]) == 0 && Builds(head[1..]) == 1;
    assert Opens(head) == 1 && Builds(head) == 1;
    assert Opens(LossTrace()) == 0 && Builds(LossTrace()) == 0;
    PollsCountNothing(polls);
    CountsAppend(head, polls);
    CountsAppend(head + polls, LossTrace());
  }

  lemma HaltedTraceCounts()
    ensures Opens([OpenTransport, RebuildFacade, Halt]) == 1 && Builds([OpenTransport, RebuildFacade, Halt]) == 0
    ensures Opens([OpenFailed, Halt]) == 1 && Builds([OpenFailed, Halt]) == 0
  {
    var t := [OpenTransport, RebuildFacade, Halt];
    assert t[1..][1..] == [Halt];
    assert Opens([Halt]) == 0 && Builds([Halt]) == 0;
    assert [OpenFailed, Halt][1..] == [Halt];
  }

  /** Each connect attempt performs exactly one build-state update, unless it halts. */
  lemma CycleBuildsOnce<V>(m: Manager<V>, deviceName: string, c: CycleInput<V>)
    requires Valid(m) && !m.connected && CoversRegisters(c.sensors)
    ensures var r := Cycle(m, deviceName, c);
            Opens(r.trace) == 1 && Builds(r.trace) == (if r.halted then 0 else 1)
  {
    var r := Cycle(m, deviceName, c);
    if !r.halted {
      var rec: BuildStateRecord, polls: seq<Action> :|
        r.trace == ConnectedTrace(rec, polls) && forall i :: 0 <= i < |polls| ==> polls[i].Poll?;
      ConnectedTraceCounts(rec, polls);
    } else {
      HaltedTraceCounts();
    }
  }

  /**
   The whole reconnect loop follows the lifecycle, and every transport opened
   is followed by exactly one build-state update, except a final halted one.
   */
  lemma {:induction false} SuperviseFollowsLifecycle<V>(m: Manager<V>, deviceName: string, cycles: seq<CycleInput<V>>)
    requires Valid(m) && !m.connected
    requires forall i :: 0 <= i < |cycles| ==> CoversRegisters(cycles[i].sensors)
    ensures var r := Supervise(m, deviceName, cycles);
            && Replay(Idle, r.trace).Some?
            && (!r.halted ==> Replay(Idle, r.trace) == Some(Idle))
            && Builds(r.trace) + (if r.halted then 1 else 0) == Opens(r.trace)
    decreases |cycles|
  {
    if |cycles| > 0 {
      var first := Cycle(m, deviceName, cycles[0]);
      CycleFollowsLifecycle(m, deviceName, cycles[0]);
      CycleBuildsOnce(m, deviceName, cycles[0]);
      if !first.halted {
        var rest := Supervise(first.m, deviceName, cycles[1..]);
        SuperviseFollowsLifecycle(first.m, deviceName, cycles[1..]);
        ReplayAppend(Idle, first.trace, rest.trace);
        CountsAppend(first.trace, rest.trace);
      }
    }
  }

  /**
   A device session from construction: start communicating, then run the
   reconnect loop. NOT_ESTABLISHED is published first, and the trace follows
   the lifecycle.
   */
  function Session<V>(config: Config, deviceName: string, cycles: seq<CycleInput<V>>): (r: CycleResult<V>)
    requires forall i :: 0 <= i < |cycles| ==> CoversRegisters(cycles[i].sensors)
    ensures |r.trace| >= 2 && r.trace[0] == PublishComm(NotEstablished)
    ensures Replay(Idle, r.trace).Some?
    ensures Valid(r.m) && !r.m.connected
  {
    var started := StartCommunicating(NewManager<V>(config));
    var loop := Supervise(started.0, deviceName, cycles);
    SuperviseFollowsLifecycle(started.0, deviceName, cycles);
    ReplayAppend(Idle, started.1, loop.trace);
    CycleResult(loop.m, started.1 + loop.trace, loop.halted)
  }
}

=== FILE: sync.dfy ===
/**
 Sensor synchronisation: the single-register refresh requested by attribute
 readers, its variant run inside the polling loop, the bounded retry of one
 register and the poll pass over the whole register map.

 The device library is an oracle: each register round trip is given as an
 `Outcome`, and a poll pass draws attempt `a` of register `r` from `dev(r, a)`.
 */
module Sync {
  import opened Base
  import opened State

  /** Result of one `update_sensor` round trip on the device facade. */
  datatype Outcome<V> =
    | Updated(value: V)     // the facade's sensor attribute now holds `value`
    | Timeout               // the protocol gave up on the register
    | UnknownRegister       // the facade raised KeyError for the name

  /** How control leaves the refresh requested from outside the event loop. */
  datatype Exit = Returned | RaisedKeyError

  datatype Refreshed<V> = Refreshed(m: Manager<V>, exit: Exit)

  /**
   Single-register refresh from outside the event loop. Not connected: nothing
   happens. Unknown register or timeout: nothing changes (the timeout message
   looks the register up in the register map, so an unmapped name raises
   KeyError there). Success: connectivity becomes ESTABLISHED and only the
   register's published value changes (again, an unmapped name raises KeyError
   when the published value is looked up, after connectivity was set).
   */
  function SyncOutside<V>(m: Manager<V>, reg: string, out: Outcome<V>): (r: Refreshed<V>)
    ensures !m.connected ==> r == Refreshed(m, Returned)
    ensures !out.Updated? ==> r.m == m
    ensures r.exit == RaisedKeyError <==> m.connected && !IsRegister(reg) && !out.UnknownRegister?
    ensures m.connected && out.Updated? ==> r.m.comm == Established
    ensures m.connected && out.Updated? && IsRegister(reg) ==> r.m.published == m.published[reg := Reading(out.value)]
    ensures !IsRegister(reg) ==> r.m.published == m.published
    ensures r.m.config == m.config && r.m.connected == m.connected
    ensures forall k :: k != reg && k in m.published ==> k in r.m.published && r.m.published[k] == m.published[k]
  {
    if !m.connected then Refreshed(m, Returned)
    else
      match out
      case UnknownRegister => Refreshed(m, Returned)
      case Timeout => Refreshed(m, if IsRegister(reg) then Returned else RaisedKeyError)
      case Updated(v) =>
        var established := m.(comm := Established);
        if IsRegister(reg) then
          Refreshed(established.(facade := m.facade[reg := v], published := m.published[reg := Reading(v)]), Returned)
        else Refreshed(established, RaisedKeyError)
  }

  /** The refresh keeps the manager invariant. */
  lemma SyncOutsideValid<V>(m: Manager<V>, reg: string, out: Outcome<V>)
    requires Valid(m)
    ensures Valid(SyncOutside(m, reg, out).m)
  {
  }

  /**
   Refreshing twice with the same device answer leaves the state where the
   first refresh left it: the second call publishes the same value again.
   */
  lemma SyncOutsideIdempotent<V>(m: Manager<V>, reg: string, out: Outcome<V>)
    ensures var once := SyncOutside(m, reg, out).m;
            SyncOutside(once, reg, out).m == once
  {
    var once := SyncOutside(m, reg, out).m;
    if m.connected && out.Updated? && IsRegister(reg) {
      assert once.published[reg := Reading(out.value)] == once.published;
      assert once.facade[reg := out.value] == once.facade;
    }
  }

  /** How control leaves the refresh run inside the polling loop. */
  datatype Synced<V> = Completed(m: Manager<V>) | TimedOut(m: Manager<V>)

  /**
   Single-register refresh inside the polling loop, for a register of the map.
   A timeout is re-raised to the retry loop with nothing changed. An unknown-
   register error is only logged: control falls through and publishes whatever
   the facade currently holds for the register, without touching connectivity.
   */
  function SyncWithin<V>(m: Manager<V>, reg: string, out: Outcome<V>): (r: Synced<V>)
    requires Valid(m) && IsRegister(reg)
    ensures Valid(r.m)
    ensures r.TimedOut? <==> m.connected && out.Timeout?
    ensures r.TimedOut? || !m.connected ==> r.m == m
    ensures m.connected && out.Updated? ==> r.m.comm == Established && r.m.published == m.published[reg := Reading(out.value)]
    ensures m.connected && out.UnknownRegister? ==> r.m.comm == m.comm && r.m.published == m.published[reg := Reading(m.facade[reg])]
    ensures r.m.config == m.config && r.m.connected == m.connected
  {
    if !m.connected then Completed(m)
    else
      match out
      case Timeout => TimedOut(m)
      case UnknownRegister => Completed(m.(published := m.published[reg := Reading(m.facade[reg])]))
      case Updated(v) =>
        Completed(m.(comm := Established, facade := m.facade[reg := v], published := m.published[reg := Reading(v)]))
  }

  /** MAX_RETRY_COUNT: attempts per register in one poll pass. */
  const MaxRetryCount: nat := 3

  /** Attempt `a` of register `r` in a poll pass yields `dev(r, a)`. */
  type Device<V> = (string, nat) -> Outcome<V>

  /** Every attempt the pass may make on `reg` times out. */
  predicate AllTimeout<V>(dev: Device<V>, reg: string) {
    forall a :: 0 <= a < MaxRetryCount ==> dev(reg, a).Timeout?
  }

  /** Number of consecutive timeouts from attempt `from` on (at most the remaining budget). */
  function LeadingTimeouts<V>(dev: Device<V>, reg: string, from: nat): nat
    decreases MaxRetryCount - from
  {
    if from >= MaxRetryCount || !dev(reg, from).Timeout? then 0
    else 1 + LeadingTimeouts(dev, reg, from + 1)
  }

  datatype Attempts<V> = Attempts(m: Manager<V>, accessed: seq<string>, exhausted: bool)

  /** The device round trip of one attempt: only made while connected. */
  function Access<V>(m: Manager<V>, reg: string): seq<string> {
    if m.connected then [reg] else []
  }

  /**
   Attempts `attempt`, `attempt` + 1, ... on one register until one of them does
   not time out or the retry budget is spent; `accessed` lists the device
   round trips made and `exhausted` says the budget ran out.
   */
  function RetryRegister<V>(m: Manager<V>, reg: string, attempt: nat, dev: Device<V>): (r: Attempts<V>)
    requires Valid(m) && IsRegister(reg) && attempt < MaxRetryCount
    ensures Valid(r.m)
    ensures r.m.connected == m.connected && r.m.config == m.config
    ensures |r.accessed| <= MaxRetryCount - attempt
    ensures forall x :: x in r.accessed ==> x == reg
    ensures !m.connected ==> r == Attempts(m, [], false)
    ensures forall k :: k != reg && k in m.published ==> r.m.published[k] == m.published[k]
    ensures r.exhausted <==> m.connected && forall a :: attempt <= a < MaxRetryCount ==> dev(reg, a).Timeout?
    ensures r.exhausted ==> r.m == m
    decreases MaxRetryCount - attempt
  {
    match SyncWithin(m, reg, dev(reg, attempt))
    case Completed(m1) => Attempts(m1, Access(m, reg), false)
    case TimedOut(m1) =>
      if attempt + 1 >= MaxRetryCount then Attempts(m1, Access(m, reg), true)
      else
        var rest := RetryRegister(m1, reg, attempt + 1, dev);
        Attempts(rest.m, Access(m, reg) + rest.accessed, rest.exhausted)
  }

  /**
   Retries stop at the first attempt that does not time out: the register is
   attempted once per leading timeout plus once more, within the budget.
   */
  lemma {:induction false} RetryStopsAtFirstSuccess<V>(m: Manager<V>, reg: string, attempt: nat, dev: Device<V>)
    requires Valid(m) && IsRegister(reg) && attempt < MaxRetryCount && m.connected
    ensures var k := attempt + LeadingTimeouts(dev, reg, attempt);
            |RetryRegister(m, reg, attempt, dev).accessed| == (if k < MaxRetryCount then k + 1 - attempt else MaxRetryCount - attempt)
    decreases MaxRetryCount - attempt
  {
    var out := dev(reg, attempt);
    var r := RetryRegister(m, reg, attempt, dev);
    if !out.Timeout? {
      assert LeadingTimeouts(dev, reg, attempt) == 0;
      assert SyncWithin(m, reg, out).Completed?;
      assert r.accessed == [reg];
    } else if attempt + 1 >= MaxRetryCount {
      assert LeadingTimeouts(dev, reg, attempt) == 1;
      assert r.accessed == [reg];
    } else {
      assert SyncWithin(m, reg, out) == TimedOut(m);
      var rest := RetryRegister(m, reg, attempt + 1, dev);
      assert r.accessed == [reg] + rest.accessed;
      assert LeadingTimeouts(dev, reg, attempt) == 1 + LeadingTimeouts(dev, reg, attempt + 1);
      RetryStopsAtFirstSuccess(m, reg, attempt + 1, dev);
    }
  }

  /**
   The retry loop ends in the state its first non-timeout attempt leaves: a
   value read there is published and marks the link established.
   */
  lemma {:induction false} RetryEndsAtFirstAnswer<V>(m: Manager<V>, reg: string, attempt: nat, dev: Device<V>)
    requires Valid(m) && IsRegister(reg) && attempt < MaxRetryCount && m.connected
    ensures var k := attempt + LeadingTimeouts(dev, reg, attempt);
            var r := RetryRegister(m, reg, attempt, dev);
            k < MaxRetryCount ==> !r.exhausted && r.m == SyncWithin(m, reg, dev(reg, k)).m
    decreases MaxRetryCount - attempt
  {
    var out := dev(reg, attempt);
    if !out.Timeout? {
      assert LeadingTimeouts(dev, reg, attempt) == 0;
    } else if attempt + 1 >= MaxRetryCount {
      assert LeadingTimeouts(dev, reg, attempt) == 1;
    } else {
      assert SyncWithin(m, reg, out) == TimedOut(m);
      assert LeadingTimeouts(dev, reg, attempt) == 1 + LeadingTimeouts(dev, reg, attempt + 1);
      RetryEndsAtFirstAnswer(m, reg, attempt + 1, dev);
    }
  }

  datatype Pass<V> = Pass(m: Manager<V>, accessed: seq<string>, aborted: bool)

  /**
   One poll pass over `regs` in order. A register that exhausts its retries
   ends the pass: the registers after it are not attempted.
   */
  function PollPass<V>(m: Manager<V>, regs: seq<string>, dev: Device<V>): (r: Pass<V>)
    requires Valid(m) && forall i :: 0 <= i < |regs| ==> IsRegister(regs[i])
    ensures Valid(r.m)
    ensures r.m.connected == m.connected && r.m.config == m.config
    ensures forall x :: x in r.accessed ==> x in regs
    ensures forall x :: multiset(r.accessed)[x] <= MaxRetryCount * multiset(regs)[x]
    ensures forall k :: k !in regs && k in m.published ==> r.m.published[k] == m.published[k]
    ensures !m.connected ==> r == Pass(m, [], false)
    ensures r.aborted <==> m.connected && exists i :: 0 <= i < |regs| && AllTimeout(dev, regs[i])
    decreases |regs|
  {
    if |regs| == 0 then Pass(m, [], false)
    else
      var first := RetryRegister(m, regs[0], 0, dev);
      SameRegisterMultiplicity(first.accessed, regs[0]);
      if first.exhausted then
        assert regs[0] in regs;
        Pass(first.m, first.accessed, true)
      else
        var rest := PollPass(first.m, regs[1..], dev);
        MultiplicityStep(regs, first.accessed, rest.accessed);
        AbortedStep(regs, dev, m.connected);
        Pass(rest.m, first.accessed + rest.accessed, rest.aborted)
  }

  /** The accesses of the first register and of the rest of the pass stay within the budget together. */
  lemma MultiplicityStep(regs: seq<string>, first: seq<string>, rest: seq<string>)
    requires |regs| > 0 && |first| <= MaxRetryCount
    requires forall x :: x in first ==> x == regs[0]
    requires forall x :: multiset(rest)[x] <= MaxRetryCount * multiset(regs[1..])[x]
    requires forall x :: x in rest ==> x in regs[1..]
    ensures forall x :: multiset(first + rest)[x] <= MaxRetryCount * multiset(regs)[x]
    ensures forall x :: x in first + rest ==> x in regs
  {
    SameRegisterMultiplicity(first, regs[0]);
    assert regs == [regs[0]] + regs[1..];
    assert multiset(regs) == multiset([regs[0]]) + multiset(regs[1..]);
    assert multiset(first + rest) == multiset(first) + multiset(rest);
  }

  /** A register whose every attempt times out lies after the first one, if the first did not exhaust. */
  lemma AbortedStep<V>(regs: seq<string>, dev: Device<V>, connected: bool)
    requires |regs| > 0 && (connected ==> !AllTimeout(dev, regs[0]))
    ensures (connected && exists i :: 0 <= i < |regs| && AllTimeout(dev, regs[i])) <==>
            (connected && exists i :: 0 <= i < |regs[1..]| && AllTimeout(dev, regs[1..][i]))
  {
    if !connected {
      return;
    }
    if exists i :: 0 <= i < |regs| && AllTimeout(dev, regs[i]) {
      var i :| 0 <= i < |regs| && AllTimeout(dev, regs[i]);
      assert regs[1..][i - 1] == regs[i];
    }
    if exists i :: 0 <= i < |regs[1..]| && AllTimeout(dev, regs[1..][i]) {
      var i :| 0 <= i < |regs[1..]| && AllTimeout(dev, regs[1..][i]);
      assert regs[i + 1] == regs[1..][i];
    }
  }

  lemma {:induction false} SameRegisterMultiplicity(s: seq<string>, reg: string)
    requires forall x :: x in s ==> x == reg
    ensures multiset(s)[reg] == |s|
    ensures forall x :: x != reg ==> multiset(s)[x] == 0
    decreases |s|
  {
    if |s| > 0 {
      assert s == [s[0]] + s[1..];
      assert forall x :: x in s[1..] ==> x in s;
      assert s[0] in s;
      assert multiset(s) == multiset([s[0]]) + multiset(s[1..]);
      SameRegisterMultiplicity(s[1..], reg);
    }
  }

  /** `_update_all_registers`: one pass over the register map in insertion order. */
  function UpdateAllRegisters<V>(m: Manager<V>, dev: Device<V>): (r: Pass<V>)
    requires Valid(m)
    ensures Valid(r.m)
    ensures forall x :: multiset(r.accessed)[x] <= MaxRetryCount
    ensures r.m.published[BuildStateKey] == m.published[BuildStateKey]
  {
    var regs := Registers();
    assert forall i :: 0 <= i < |regs| ==> IsRegister(regs[i]);
    var r := PollPass(m, regs, dev);
    RegistersAtMostOnce();
    assert forall x :: multiset(r.accessed)[x] <= MaxRetryCount * multiset(regs)[x];
    RegistersDistinct();
    StateKeysMembers();
    r
  }

  lemma RegistersAtMostOnce()
    ensures forall x :: multiset(Registers())[x] <= 1
  {
    RegistersDistinct();
    forall x
      ensures multiset(Registers())[x] <= 1
    {
      DistinctMultiplicity(Registers(), x);
    }
  }

  lemma {:induction false} DistinctMultiplicity(s: seq<string>, x: string)
    requires forall i, j :: 0 <= i < j < |s| ==> s[i] != s[j]
    ensures multiset(s)[x] <= 1
    decreases |s|
  {
    if |s| > 0 {
      assert s == [s[0]] + s[1..];
      DistinctMultiplicity(s[1..], x);
      if x == s[0] {
        assert x !in s[1..] by {
          forall j | 0 <= j < |s[1..]|
            ensures s[1..][j] != x
          {
            assert s[1..][j] == s[j + 1];
          }
        }
      }
    }
  }

  /**
   When register `regs[i]` is the first whose every attempt times out, the pass
   is aborted and no register after it is attempted.
   */
  lemma {:induction false} PassStopsAtExhaustedRegister<V>(m: Manager<V>, regs: seq<string>, dev: Device<V>, i: nat)
    requires Valid(m) && forall j :: 0 <= j < |regs| ==> IsRegister(regs[j])
    requires m.connected
    requires i < |regs| && AllTimeout(dev, regs[i])
    requires forall j :: 0 <= j < i ==> !AllTimeout(dev, regs[j])
    ensures var r := PollPass(m, regs, dev);
            r.aborted && forall x :: x in r.accessed ==> x in regs[..i + 1]
    decreases i
  {
    var first := RetryRegister(m, regs[0], 0, dev);
    if i > 0 {
      assert !first.exhausted;
      var rest := PollPass(first.m, regs[1..], dev);
      PassStopsAtExhaustedRegister(first.m, regs[1..], dev, i - 1);
      assert regs[1..][..i] == regs[1..i + 1];
      forall x | x in first.accessed + rest.accessed
        ensures x in regs[..i + 1]
      {
        if x in first.accessed {
          assert x == regs[0];
        } else {
          assert x in regs[1..][..i];
        }
      }
    }
  }

  /** One register of a fault-free pass: accessed once, then the rest of the pass runs. */
  lemma FaultFreeStep<V>(m: Manager<V>, regs: seq<string>, dev: Device<V>)
    requires Valid(m) && forall j :: 0 <= j < |regs| ==> IsRegister(regs[j])
    requires m.connected && |regs| > 0 && dev(regs[0], 0).Updated?
    ensures var first := RetryRegister(m, regs[0], 0, dev);
            var rest := PollPass(first.m, regs[1..], dev);
            && Valid(first.m) && first.m.connected
            && first.m.published[regs[0]] == Reading(dev(regs[0], 0).value)
            && first.m.comm == Established
            && PollPass(m, regs, dev) == Pass(rest.m, [regs[0]] + rest.accessed, rest.aborted)
  {
    FirstAttemptSucceeds(m, regs[0], dev);
  }

  /** Every register of `regs` answers its first attempt with a value. */
  predicate FaultFree<V>(dev: Device<V>, regs: seq<string>) {
    forall j :: 0 <= j < |regs| ==> dev(regs[j], 0).Updated?
  }

  predicate AllRegisters(regs: seq<string>) {
    forall j :: 0 <= j < |regs| ==> IsRegister(regs[j])
  }

  predicate Distinct(regs: seq<string>) {
    forall i, j :: 0 <= i < j < |regs| ==> regs[i] != regs[j]
  }

  /** The properties a fault-free pass needs hold again for the rest of the registers. */
  lemma FaultFreeTail<V>(dev: Device<V>, regs: seq<string>)
    requires |regs| > 0 && FaultFree(dev, regs) && AllRegisters(regs)
    ensures FaultFree(dev, regs[1..]) && AllRegisters(regs[1..])
    ensures dev(regs[0], 0).Updated? && IsRegister(regs[0])
  {
    assert forall j :: 0 <= j < |regs[1..]| ==> regs[1..][j] == regs[j + 1];
  }

  /** The rest of a repetition-free sequence is repetition-free and does not hold its head. */
  lemma DistinctTail(regs: seq<string>)
    requires |regs| > 0 && Distinct(regs)
    ensures Distinct(regs[1..]) && regs[0] !in regs[1..]
  {
    assert forall j :: 0 <= j < |regs[1..]| ==> regs[1..][j] == regs[j + 1];
  }

  /**
   A fault-free pass (every first attempt succeeds) attempts each register
   exactly once, in order, and is not aborted.
   */
  lemma {:induction false} FaultFreePass<V>(m: Manager<V>, regs: seq<string>, dev: Device<V>)
    requires Valid(m) && AllRegisters(regs) && FaultFree(dev, regs)
    requires m.connected
    ensures var r := PollPass(m, regs, dev);
            r.accessed == regs && !r.aborted
    decreases |regs|
  {
    if |regs| > 0 {
      var first := RetryRegister(m, regs[0], 0, dev);
      var tail := regs[1..];
      FaultFreeTail(dev, regs);
      FaultFreeStep(m, regs, dev);
      var rest := PollPass(first.m, tail, dev);
      FaultFreePass(first.m, tail, dev);
      assert rest.accessed == tail && !rest.aborted;
      assert PollPass(m, regs, dev).accessed == [regs[0]] + tail;
      assert [regs[0]] + tail == regs;
    }
  }

  /** A fault-free pass over distinct registers publishes each register's value. */
  lemma {:induction false} FaultFreePublishes<V>(m: Manager<V>, regs: seq<string>, dev: Device<V>)
    requires Valid(m) && AllRegisters(regs) && Distinct(regs) && FaultFree(dev, regs)
    requires m.connected
    ensures var r := PollPass(m, regs, dev);
            && (forall j :: 0 <= j < |regs| ==> r.m.published[regs[j]] == Reading(dev(regs[j], 0).value))
            && (|regs| > 0 ==> r.m.comm == Established)
    decreases |regs|
  {
    if |regs| > 0 {
      var first := RetryRegister(m, regs[0], 0, dev);
      var tail := regs[1..];
      FaultFreeTail(dev, regs);
      DistinctTail(regs);
      FaultFreeStep(m, regs, dev);
      var rest := PollPass(first.m, tail, dev);
      FaultFreePublishes(first.m, tail, dev);
      forall j | 0 <= j < |regs|
        ensures rest.m.published[regs[j]] == Reading(dev(regs[j], 0).value)
      {
        if j == 0 {
          StateKeysMembers();
        } else {
          assert regs[j] == tail[j - 1];
        }
      }
    }
  }

  /** A register whose first attempt succeeds is accessed once and its value published. */
  lemma FirstAttemptSucceeds<V>(m: Manager<V>, reg: string, dev: Device<V>)
    requires Valid(m) && IsRegister(reg) && m.connected && dev(reg, 0).Updated?
    ensures var r := RetryRegister(m, reg, 0, dev);
            && r.accessed == [reg] && !r.exhausted && r.m.connected
            && r.m.published[reg] == Reading(dev(reg, 0).value) && r.m.comm == Established
  {
    var out := dev(reg, 0);
    assert SyncWithin(m, reg, out).Completed?;
  }

  /** A fault-free pass over the register map updates each of the 11 registers exactly once. */
  lemma FaultFreeUpdateAll<V>(m: Manager<V>, dev: Device<V>)
    requires Valid(m) && m.connected
    requires forall r :: IsRegister(r) ==> dev(r, 0).Updated?
    ensures var r := UpdateAllRegisters(m, dev);
            && r.accessed == Registers()
            && |r.accessed| == RegisterCount
            && (forall reg :: IsRegister(reg) ==> r.m.published[reg] == Reading(dev(reg, 0).value))
            && r.m.comm == Established
  {
    RegistersDistinct();
    assert AllRegisters(Registers()) && FaultFree(dev, Registers());
    FaultFreePass(m, Registers(), dev);
    FaultFreePublishes(m, Registers(), dev);
  }
}

=== FILE: text.dfy ===
/**
 Text helpers for the pieces of Python string handling the device relies on:
 `str(int)` for messages, `int(text)` for configuration properties, and
 `str.split(sep)` for the "ip:port" endpoint.
 */
module Text {
  import opened Base

  predicate IsDigit(c: char) {
    '0' <= c <= '9'
  }

  predicate AllDigits(s: string) {
    forall i :: 0 <= i < |s| ==> IsDigit(s[i])
  }

  function DigitChar(d: nat): (c: char)
    requires d < 10
    ensures IsDigit(c)
    ensures c as int - '0' as int == d
  {
    ('0' as int + d) as char
  }

  /** Decimal digits of `n`, most significant first, with no leading zero. */
  function NatToString(n: nat): (s: string)
    ensures |s| >= 1
    ensures AllDigits(s)
    ensures |s| > 1 ==> s[0] != '0'
    decreases n
  {
    if n < 10 then [DigitChar(n)] else NatToString(n / 10) + [DigitChar(n % 10)]
  }

  /** Python's `str(i)` (and `f"{i}"`) for an integer. */
  function IntToString(i: int): (s: string)
    ensures |s| >= 1
    ensures i < 0 <==> s[0] == '-'
    ensures i >= 0 ==> AllDigits(s)
    ensures i < 0 ==> |s| >= 2 && AllDigits(s[1..])
    ensures i >= 0 && |s| > 1 ==> s[0] != '0'
    ensures i < 0 && |s| > 2 ==> s[1] != '0'
  {
    if i < 0 then
      var digits := NatToString(-i);
      assert ("-" + digits)[1..] == digits;
      "-" + digits
    else NatToString(i)
  }

  /** The number a non-empty run of decimal digits denotes. */
  function DigitsValue(s: string): nat
    requires AllDigits(s)
    decreases |s|
  {
    if |s| == 0 then 0
    else DigitsValue(s[..|s| - 1]) * 10 + (s[|s| - 1] as int - '0' as int)
  }

  /**
   Python's `int(text)` on ASCII text: an optional sign followed by at least
   one decimal digit. `None` stands for the ValueError it raises otherwise.
   */
  function ParseInt(s: string): (r: Option<int>)
    ensures r.Some? <==> IsIntText(s)
    ensures AllDigits(s) && |s| >= 1 ==> r == Some(DigitsValue(s) as int)
    ensures |s| >= 2 && s[0] == '-' && AllDigits(s[1..]) ==> r == Some(-(DigitsValue(s[1..]) as int))
    ensures |s| >= 2 && s[0] == '+' && AllDigits(s[1..]) ==> r == Some(DigitsValue(s[1..]) as int)
  {
    if |s| >= 1 && (s[0] == '-' || s[0] == '+') then
      var digits := s[1..];
      if |digits| >= 1 && AllDigits(digits) then
        Some(if s[0] == '-' then -(DigitsValue(digits) as int) else DigitsValue(digits) as int)
      else None
    else if |s| >= 1 && AllDigits(s) then Some(DigitsValue(s) as int)
    else None
  }

  /** The texts `int` accepts: decimal digits, possibly after one sign character. */
  predicate IsIntText(s: string) {
    || (|s| >= 1 && AllDigits(s))
    || (|s| >= 2 && (s[0] == '-' || s[0] == '+') && AllDigits(s[1..]))
  }

  lemma {:induction false} DigitsValueOfNatToString(n: nat)
    ensures DigitsValue(NatToString(n)) == n
    decreases n
  {
    if n >= 10 {
      var prefix := NatToString(n / 10);
      var s := prefix + [DigitChar(n % 10)];
      assert s[..|s| - 1] == prefix;
      DigitsValueOfNatToString(n / 10);
    }
  }

  /** Rendering an integer and parsing the text back gives the integer. */
  lemma ParseIntRoundTrip(i: int)
    ensures ParseInt(IntToString(i)) == Some(i)
  {
    var s := IntToString(i);
    if i < 0 {
      var digits := NatToString(-i);
      assert s == "-" + digits;
      assert s[1..] == digits;
      DigitsValueOfNatToString(-i);
      assert ParseInt(s) == Some(-(DigitsValue(digits) as int));
    } else {
      var digits := NatToString(i);
      assert s == digits && IsDigit(s[0]);
      DigitsValueOfNatToString(i);
    }
  }

  /** A rendered integer holds only a leading minus sign and decimal digits. */
  lemma IntToStringSymbols(i: int)
    ensures forall k :: 0 <= k < |IntToString(i)| ==> IntToString(i)[k] == '-' || IsDigit(IntToString(i)[k])
  {
    var s := IntToString(i);
    if i < 0 {
      assert s[1..] == NatToString(-i);
      assert forall k :: 1 <= k < |s| ==> s[k] == NatToString(-i)[k - 1];
    }
  }

  /** Distinct integers have distinct renderings. */
  lemma IntToStringInjective(a: int, b: int)
    ensures IntToString(a) == IntToString(b) ==> a == b
  {
    ParseIntRoundTrip(a);
    ParseIntRoundTrip(b);
  }

  /** Python's `s.split(sep)` for a one-character separator. */
  function Split(s: string, sep: char): (fields: seq<string>)
    ensures |fields| >= 1
    ensures |fields| >= 2 <==> sep in s
    decreases |s|
  {
    if |s| == 0 then [""]
    else
      var rest := Split(s[1..], sep);
      assert s == [s[0]] + s[1..];
      if s[0] == sep then [""] + rest
      else [[s[0]] + rest[0]] + rest[1..]
  }

  /** Python's `sep.join(fields)`. */
  function Join(fields: seq<string>, sep: char): string
    requires |fields| >= 1
    decreases |fields|
  {
    if |fields| == 1 then fields[0] else fields[0] + [sep] + Join(fields[1..], sep)
  }

  /** Splitting and re-joining gives back the original text. */
  lemma {:induction false} SplitJoin(s: string, sep: char)
    ensures Join(Split(s, sep), sep) == s
    decreases |s|
  {
    if |s| > 0 {
      var rest := Split(s[1..], sep);
      SplitJoin(s[1..], sep);
      if s[0] == sep {
        assert Split(s, sep)[1..] == rest;
      } else if |rest| == 1 {
        assert Join(Split(s, sep), sep) == [s[0]] + rest[0];
      } else {
        var fields := Split(s, sep);
        assert fields[1..] == rest[1..];
        assert Join(rest, sep) == rest[0] + [sep] + Join(rest[1..], sep);
      }
    }
  }

  /** No field of a split contains the separator. */
  lemma {:induction false} SplitFieldsHaveNoSeparator(s: string, sep: char)
    ensures forall k :: 0 <= k < |Split(s, sep)| ==> sep !in Split(s, sep)[k]
    decreases |s|
  {
    if |s| > 0 {
      SplitFieldsHaveNoSeparator(s[1..], sep);
      var rest := Split(s[1..], sep);
      var fields := Split(s, sep);
      if s[0] != sep {
        forall k | 0 <= k < |fields|
          ensures sep !in fields[k]
        {
          if k > 0 {
            assert fields[k] == rest[k];
          }
        }
      }
    }
  }

  /** The first field is the text before the first separator (or all of it). */
  lemma {:induction false} FirstFieldIsPrefix(s: string, sep: char)
    ensures Split(s, sep)[0] <= s
    ensures sep !in Split(s, sep)[0]
    ensures |Split(s, sep)| >= 2 <==> sep in s
    ensures |Split(s, sep)| >= 2 ==> s[|Split(s, sep)[0]|] == sep
    decreases |s|
  {
    SplitFieldsHaveNoSeparator(s, sep);
    if |s| > 0 {
      FirstFieldIsPrefix(s[1..], sep);
      assert s == [s[0]] + s[1..];
    }
  }

  /** Text without the separator is a single field. */
  lemma {:induction false} SplitWithoutSeparator(s: string, sep: char)
    requires sep !in s
    ensures Split(s, sep) == [s]
    decreases |s|
  {
    if |s| > 0 {
      SplitWithoutSeparator(s[1..], sep);
      assert [s[0]] + s[1..] == s;
    }
  }

  /** Splitting at the first separator: the text before it is the first field. */
  lemma {:induction false} SplitAtFirst(a: string, b: string, sep: char)
    requires sep !in a
    ensures Split(a + [sep] + b, sep) == [a] + Split(b, sep)
    decreases |a|
  {
    var s := a + [sep] + b;
    if |a| == 0 {
      assert s[1..] == b;
    } else {
      assert s[1..] == a[1..] + [sep] + b;
      SplitAtFirst(a[1..], b, sep);
      assert [a[0]] + a[1..] == a;
    }
  }

  /** The value of the first pair named `key` in an association list, if any. */
  function Lookup(pairs: seq<(string, string)>, key: string): (r: Option<string>)
    ensures r.None? <==> forall i :: 0 <= i < |pairs| ==> pairs[i].0 != key
    ensures r.Some? ==> exists i :: 0 <= i < |pairs| && pairs[i] == (key, r.value)
    decreases |pairs|
  {
    if |pairs| == 0 then None
    else if pairs[0].0 == key then Some(pairs[0].1)
    else
      var r := Lookup(pairs[1..], key);
      assert forall i :: 1 <= i < |pairs| ==> pairs[i] == pairs[1..][i - 1];
      r
  }

  /** A key that no earlier pair carries is found with its own value. */
  lemma {:induction false} LookupFindsFirst(pairs: seq<(string, string)>, i: nat)
    requires i < |pairs|
    requires forall j :: 0 <= j < i ==> pairs[j].0 != pairs[i].0
    ensures Lookup(pairs, pairs[i].0) == Some(pairs[i].1)
    decreases i
  {
    if i > 0 {
      assert pairs[1..][i - 1] == pairs[i];
      LookupFindsFirst(pairs[1..], i - 1);
    }
  }

  /** `t` occurs somewhere in `s`. */
  predicate Contains(s: string, t: string)
    decreases |s|
  {
    t <= s || (|s| > 0 && Contains(s[1..], t))
  }

  predicate EndsWith(s: string, t: string) {
    |t| <= |s| && s[|s| - |t|..] == t
  }

  lemma {:induction false} ContainsMiddle(a: string, t: string, b: string)
    ensures Contains(a + t + b, t)
    decreases |a|
  {
    if |a| == 0 {
      assert a + t + b == t + b;
    } else {
      assert (a + t + b)[1..] == a[1..] + t + b;
      ContainsMiddle(a[1..], t, b);
    }
  }
}
